=== FILE: README.md ===
# Civic report store and pages — a Dafny model

This project models the logic of a citizen issue-reporting web application.
Citizens file reports about problems in their neighbourhood. Administrators
filter the reports, place them on a map, chart them, and move them through
the statuses pending, in progress and resolved.

The application keeps all its state in one synchronous in-memory store. The
state is the signed-in user and the list of reports. The rest of its logic
consists of pure rules inside page handlers: list filters and counts,
validation guards in front of store calls, a route guard, and a few display
helpers. The model follows that structure, with one module per source file
and a few shared modules:

- `Types`: users, roles, statuses, reports and drafts. Category is a plain
  string because the pages produce and compare strings that the declared
  four-value category type does not contain.
- `Seqs`: an order-preserving filter, counting, and the subsequence relation.
- `Text`: ASCII upper-casing, replacing the first occurrence of a character,
  and decimal clock stamps.
- `Queries`: the list queries the pages share (by status, by author, by
  category, by id).
- `Store` (`useStore.ts`): login, register, logout, addReport and
  updateReportStatus as pure transitions over `State(user, reports)`.
  Clock readings and the `Date.now()` stamp inside generated ids are
  parameters.
- `ReportFilter`, `AdminDashboard`, `MapView`, `CitizenDashboard`,
  `Analytics`, `ReportDetails`, `SubmitReport`, `Register`, `ReportCard`,
  `Routes` (`App.tsx`): one module per page or component.

The store's code fixes these behaviours, and the model keeps them:

- `logout` clears the user but keeps the report list.
- `login` accepts exactly two hard-coded credential pairs.
- `register` always succeeds.
- `addReport` does not check for a signed-in user; the submission page does.
- The store keeps everything in memory: it has no backend, no change
  subscription and no optimistic-update reconciliation.

## Model

| member | source | states |
|---|---|---|
| Types.StatusFromName | src/store/useStore.ts:12 | a name that reads back as a status is that status's name |
| Types.StatusNameRoundTrip | src/store/useStore.ts:12 | every status name reads back as the status it came from, so the three names are distinct |
| Types.DraftRoundTrip | src/store/useStore.ts:39 | a report built from a draft gives the draft back, with the store-assigned id and times in their own fields |
| Text.ReplaceFirst | src/pages/ReportDetails.tsx:88 | the string keeps its length; only the first occurrence of the character is replaced and every other position is unchanged |
| Text.ReplaceFirstAt | src/components/ReportCard.tsx:61 | with the first occurrence at position k, the result has the new character at k and agrees with the input everywhere else |
| Text.ReplaceOnlyOccurrence | src/components/ReportCard.tsx:61 | when the character occurs at most once, the result no longer contains it |
| Text.DecimalRoundTrip | src/store/useStore.ts:81 | parsing the decimal rendering of a clock stamp gives the stamp back |
| Text.StampedIdInjective | src/store/useStore.ts:95 | two ids with the same prefix are equal only for equal stamps |
| Seqs.Filter | src/pages/AdminDashboard.tsx:18-22 | the filter result is an order-preserving subsequence, no longer than the list, holding exactly the elements that pass |
| Seqs.FilterMultiset | src/pages/AdminDashboard.tsx:18-22 | each element that passes occurs in the result as often as in the list, and no other element occurs |
| Seqs.FilterFilter | src/pages/CitizenDashboard.tsx:21-25 | filtering twice equals filtering once by both tests |
| Seqs.FilterAppend | src/store/useStore.ts:99 | filtering distributes over appending |
| Seqs.CountDisjoint | src/pages/Analytics.tsx:20-26 | counts under two tests that never hold together add up to the count under either test |
| Store.Login | src/store/useStore.ts:52-76 | succeeds exactly for the two hard-coded pairs; the signed-in user has the given e-mail and is an admin exactly for the admin e-mail; a failure changes nothing; reports never change |
| Store.LoginMatchesAccounts | src/store/useStore.ts:54-75 | success exactly when an account exists for the pair, and the signed-in user is then that account |
| Store.Register | src/store/useStore.ts:78-88 | always succeeds; the user has exactly the given name, e-mail and role and an id of "user" followed by digits; reports unchanged |
| Store.RegisterIdsDistinct | src/store/useStore.ts:81 | registrations at distinct stamps give distinct user ids |
| Store.Logout | src/store/useStore.ts:90 | the user is cleared and the report list is kept |
| Store.AddReport | src/store/useStore.ts:92-100 | the list grows by one, earlier reports unchanged and in order; the new last report carries the draft, the id "report" plus the stamp, and the two clock readings |
| Store.AddReportKeepsValid | src/store/useStore.ts:92-99 | with a fresh id and ordered clock readings, unique ids and created-before-updated are preserved |
| Store.UpdateReportStatus | src/store/useStore.ts:102-110 | length and order kept; a matching report gets the status and the new time and keeps every other field; other reports are untouched |
| Store.SetStatus | src/store/useStore.ts:104-108 | the element-wise map: the same per-report relation as the update |
| Store.SetStatusUnchangedIff | src/store/useStore.ts:104-108 | the list is unchanged exactly when every matching report already has that status and time |
| Store.UpdateAbsentIdUnchanged | src/store/useStore.ts:104-108 | an id no report carries leaves the store as it was |
| Store.UpdateTwiceIsOnce | src/store/useStore.ts:102-110 | updating the same id to the same status twice equals updating once at the later time |
| Store.UpdateKeepsValid | src/store/useStore.ts:102-110 | with a clock no earlier than any recorded time, the store invariant and the clock bound are preserved |
| Store.UpdateBumpsTime | src/store/useStore.ts:106 | with a strictly later clock, every matching report's update time strictly increases |
| Queries.WithStatus | src/pages/AdminDashboard.tsx:26-28 | exactly the reports with that status, each as often as in the list, as a subsequence of the list |
| Queries.StatusCountsSum | src/pages/AdminDashboard.tsx:24-29 | the three per-status counts add up to the number of reports |
| Queries.CountStatusBounded | src/pages/AdminDashboard.tsx:26-28 | each per-status count is at most the number of reports |
| Queries.CountStatusAppend | src/store/useStore.ts:99 | appending a report adds one to its own status's count only |
| Queries.ByCitizen | src/pages/CitizenDashboard.tsx:21 | exactly the reports whose citizen id matches, each as often as in the list, as a subsequence of the list |
| Queries.WithCategory | src/pages/Analytics.tsx:20-26 | exactly the reports whose category string equals the name, each as often as in the list, as a subsequence |
| Queries.FindById | src/pages/ReportDetails.tsx:30 | nothing exactly when no report has the id; otherwise the report at the first position with that id |
| ReportFilter.Keep | src/pages/AdminDashboard.tsx:18-22 | a report is kept exactly when the status selector admits its status and the category selector is "all" or equals its category |
| ReportFilter.FilteredReportsSpec | src/pages/AdminDashboard.tsx:18-22 | `FilteredReports`, the filtered list, is an order-preserving subsequence holding exactly the matching reports, each as often as in the list |
| ReportFilter.FilteredAllIsIdentity | src/pages/AdminDashboard.tsx:19-21 | both selectors on "all" give the whole list, and the filter returns the whole list exactly when every report matches |
| AdminDashboard.ComputeStats | src/pages/AdminDashboard.tsx:24-29 | total is the list length; the three counts partition it and each is bounded by it |
| AdminDashboard.Shown | src/pages/AdminDashboard.tsx:18-22 | the shown list is an order-preserving subsequence holding exactly the matching reports, each as often as in the list, and is never longer than the total card |
| AdminDashboard.ClearFilters | src/pages/AdminDashboard.tsx:144-147 | after clearing, the Clear Filters button is no longer offered |
| AdminDashboard.ClearRestoresAll | src/pages/AdminDashboard.tsx:140-147 | after clearing, and on first render, the page shows every report; the button shows exactly when a selector is not "all" |
| MapView.Markers | src/pages/MapView.tsx:41-47 | the markers are an order-preserving subsequence holding exactly the matching reports, each as often as in the list |
| MapView.Showing | src/pages/MapView.tsx:112 | "Showing X of Y": X is the number of markers and Y the list length, so X is at most Y, and X equals Y exactly when every report matches |
| MapView.CategorySelectionIsExact | src/pages/MapView.tsx:44 | a category selection keeps exactly the reports with that exact category string; "all" keeps every report |
| MapView.MapOptionsMissSubmissions | src/pages/MapView.tsx:88-91 | as written, selecting any of the map's categories hides every report filed through the submission menu |
| MapView.EveryMenuCategoryIsSelectable | src/pages/MapView.tsx:88-91 | for a report filed through the corrected menu, the corrected selector offers an option under which the report is a marker, namely its own category |
| CitizenDashboard.Render | src/pages/CitizenDashboard.tsx:12-29 | nothing is computed exactly when no one is signed in; each of the three counts is the number of own reports with that status, and they add up to the number of own reports |
| CitizenDashboard.ViewContents | src/pages/CitizenDashboard.tsx:16-25 | the own list holds exactly the user's reports in store order, each as often as in the store; the tab list holds exactly the own reports the tab admits, with the same multiplicities; "all" lists every own report |
| CitizenDashboard.TabIsAuthorAndStatus | src/pages/CitizenDashboard.tsx:21-25 | `TabFilter`: a status tab lists the same reports, in the same order, as filtering the store by author and status together |
| Analytics.Entries | src/pages/Analytics.tsx:19-26 | one slice per name in the given order, each counting the reports with exactly that category |
| Analytics.NonEmptyEntries | src/pages/Analytics.tsx:19-27 | only slices with a positive count, in name order, each with its exact count; every name with a positive count has a slice |
| Analytics.TotalOfNonEmpty | src/pages/Analytics.tsx:27 | dropping the empty slices does not change the total |
| Analytics.TotalOfEntries | src/pages/Analytics.tsx:20-26 | for distinct names, the slice values add up to the number of reports whose category is one of the names |
| Analytics.NonEmptyEntriesTotal | src/pages/Analytics.tsx:19-27 | the chart total is at most the number of reports, and equals it exactly when every category is listed |
| Analytics.CategoryNamesDistinct | src/pages/Analytics.tsx:20-26 | the seven chart names are pairwise distinct |
| Analytics.CategoryTotal | src/pages/Analytics.tsx:19-27 | `CategoryData`, the category chart, covers the reports with a listed category: at most all of them, and all exactly when every category is one of the seven names |
| Analytics.CategoryTotalAppend | src/pages/Analytics.tsx:19-27 | adding a report grows the chart total by one exactly when its category is one of the seven names |
| Analytics.StatusData | src/pages/Analytics.tsx:30-34 | three bars named Pending, In Progress, Resolved in that order, each counting the reports with that status, summing to the number of reports |
| Analytics.ResolvedReports | src/pages/Analytics.tsx:36 | exactly the resolved reports, each as often as in the list, as a subsequence; their number is the Resolved bar |
| Analytics.ElapsedSumNonNegative | src/pages/Analytics.tsx:38-44 | with no report updated before its creation, the summed resolution time is not negative |
| Analytics.AverageResolutionDays | src/pages/Analytics.tsx:37-45 | computed exactly when some report is resolved, as summed elapsed time over count times a day; zero otherwise |
| Analytics.AverageNonNegative | src/pages/Analytics.tsx:37-45 | with created-before-updated reports, the average is never negative |
| Analytics.ResolutionRatePercent | src/pages/Analytics.tsx:47-48 | computed exactly when there are reports, as resolved times 100 over total, so between 0 and 100; zero otherwise |
| ReportDetails.ShownIsFirstMatch | src/pages/ReportDetails.tsx:30 | `Shown`: the page shows the report at the first position carrying the route id |
| ReportDetails.InitialNewStatus | src/pages/ReportDetails.tsx:31 | the selector starts on the report's status, or pending without a report |
| ReportDetails.HandleStatusUpdate | src/pages/ReportDetails.tsx:53-58 | the store changes exactly when a report is shown and the selection differs from its status, and then by the store's status update |
| ReportDetails.PressUpdate | src/pages/ReportDetails.tsx:99-124 | the store changes exactly when an admin is signed in, a report is shown and the selection differs from its status; the changed store is the store's status update for the route id at that time; the user never changes |
| ReportDetails.UpdateThenShown | src/pages/ReportDetails.tsx:53-58 | after an update the page shows the same report with the new status |
| ReportDetails.StatusColorSpec | src/pages/ReportDetails.tsx:14-21 | `StatusColor`: the three statuses get three distinct colours, and grey marks exactly the strings that are no status |
| ReportDetails.StatusLabelPending | src/pages/ReportDetails.tsx:88 | `StatusLabel`: the pending label reads PENDING |
| ReportDetails.StatusLabelInProgress | src/pages/ReportDetails.tsx:88 | `StatusLabel`: the in-progress label reads IN PROGRESS |
| ReportDetails.StatusLabelResolved | src/pages/ReportDetails.tsx:88 | `StatusLabel`: the resolved label reads RESOLVED |
| ReportCard.StatusColorSpec | src/components/ReportCard.tsx:13-24 | `StatusColor`: the three statuses get three distinct classes, and the muted class marks exactly the strings that are no status |
| ReportCard.CategoryLabel | src/components/ReportCard.tsx:26-28 | the length is kept, the first character is upper-cased, the rest is unchanged, and "" stays "" |
| ReportCard.CategoryLabelIdempotent | src/components/ReportCard.tsx:27 | capitalising twice is capitalising once |
| ReportCard.Thumbnail | src/components/ReportCard.tsx:41-48 | a thumbnail shows exactly when there are photos, and it is the first one |
| ReportCard.Overflow | src/components/ReportCard.tsx:49-53 | the "+n" marker shows exactly when there is more than one photo, with a positive n |
| ReportCard.PhotosAccountedFor | src/components/ReportCard.tsx:41-53 | the marker never shows without a thumbnail, and the thumbnail plus n account for every photo |
| ReportCard.BadgeText | src/components/ReportCard.tsx:61 | the badge text is the status name with its '-' shown as a space and every other character kept |
| ReportCard.BadgeTextFaithful | src/components/ReportCard.tsx:61 | distinct statuses give distinct badges, and turning the badge's first space back into '-' gives the status name |
| SubmitReport.HandleGetLocation | src/pages/SubmitReport.tsx:29-61 | whatever the geolocation outcome, the form and its location are left unchanged |
| SubmitReport.LocationNeverCaptured | src/pages/SubmitReport.tsx:23-61 | no sequence of form actions ever sets the location |
| SubmitReport.HandlePhotoUpload | src/pages/SubmitReport.tsx:63-71 | a selection appends its URLs after the existing photos, in order; no selection changes nothing; other fields are kept |
| SubmitReport.PhotosAccumulate | src/pages/SubmitReport.tsx:67-68 | after any actions, the photos are the starting photos followed by every selection in order |
| SubmitReport.HandleSubmit | src/pages/SubmitReport.tsx:73-106 | fails exactly with no user, or with neither location nor address; otherwise a pending draft by the user, with the form's fields and the captured or default coordinates |
| SubmitReport.Submit | src/pages/SubmitReport.tsx:89-101 | on success the store gains exactly one report, last, carrying the draft, and the new store is the store's addReport of that draft with the given stamp and clock readings; on failure the store is not called |
| SubmitReport.AddressRequired | src/pages/SubmitReport.tsx:81-84 | at the submit handler, because no location is ever captured, a signed-in user's submission goes through exactly when the address is filled in |
| SubmitReport.SubmissionShowsOnCitizenDashboard | src/pages/SubmitReport.tsx:90-101 | after a submission the citizen's own list gains the new report last; the pending count grows by one and the others stay |
| SubmitReport.UnchartedSubmission | src/pages/SubmitReport.tsx:134-140 | a submission with an uncharted category grows the dashboard total but not the chart, and no other category selector lists it |
| SubmitReport.OtherIssueAsWrittenIsLost | src/pages/SubmitReport.tsx:140 | as written, a report filed under the last menu option is counted in the total, missing from the chart, and hidden by the "Other Issue" selector |
| SubmitReport.TrailingSpaceUncharted | src/pages/SubmitReport.tsx:140 | the written last option is not one of the chart's names |
| SubmitReport.CategoryOptionsCorrected | src/pages/SubmitReport.tsx:134-140 | the corrected menu equals the chart's names and differs from the written menu only by the trailing space |
| SubmitReport.ChartedSubmission | src/pages/SubmitReport.tsx:134-139 | a submission with a charted category grows the chart total by one, and its category selector lists it |
| SubmitReport.CategoryOptionsNotAll | src/pages/SubmitReport.tsx:134-140 | no corrected menu value is the "all" selector value |
| SubmitReport.SubmittedCategoryIsCharted | src/pages/SubmitReport.tsx:134-140 | with the corrected menu, every submission whose category is picked from the menu grows the chart total by one and is listed under its category |
| Register.HandleSubmit | src/pages/Register.tsx:45-70 | the store registers exactly when the passwords match and are at least 6 long; a mismatch is reported before a short password |
| Register.RedirectIfSignedIn | src/pages/Register.tsx:28-36 | nothing without a user; admins go to the admin dashboard and everyone else to the citizen dashboard |
| Register.RedirectIsOwnDashboard | src/pages/Register.tsx:28-36 | the page's redirect is the guard's own-dashboard target, and the guard admits the user there |
| Register.RegistrationLandsOnOwnDashboard | src/pages/Register.tsx:18-60 | a registration signs in the chosen role and lands on that role's dashboard, the citizen one for the default role |
| Routes.FirstMatch | src/App.tsx:41-81 | the first route whose pattern matches, or none exactly when no route matches |
| Routes.FirstMatchAt | src/App.tsx:41-81 | a matching route with no earlier match is the one chosen |
| Routes.Lookup | src/App.tsx:41-81 | every path reaches a route of the table whose pattern matches it |
| Routes.ProtectedRoute | src/App.tsx:21-33 | no user goes to /login whatever the role; a role mismatch goes to the user's own dashboard; it renders exactly with a user and no or a matching role |
| Routes.LookupTargets | src/App.tsx:43-63 | the login page is public and each dashboard requires its own role |
| Routes.DashboardRouteRequiresOwnRole | src/App.tsx:47-63 | the dashboard the guard picks for a role requires exactly that role |
| Routes.NoRedirectLoop | src/App.tsx:21-81 | `Visit`, a route lookup followed by the guard: every redirect lands on a route that renders for the same user |
| Routes.ReportDetailsOpenToBoth | src/App.tsx:69-73 | the report route has no required role, so any signed-in user reaches it for any id |
| Routes.RoleRequirements | src/App.tsx:47-78 | under `Visit`, citizen pages require the citizen role and admin pages the admin role; each renders exactly for its role and sends the other role to its own dashboard |

## Left out

- Rendering, toasts, `navigate`, the `setTimeout` submission delay, the
  `isSubmitting` and `isLoadingLocation` spinners, and React/zustand
  reactivity. Handlers are modelled as pure functions over explicit state.
- Real clocks and `Date.now()`: clock readings and id stamps are `nat`
  parameters, so uniqueness of ids is a precondition of the invariant
  lemmas rather than a fact about the clock.
- Date formatting (`toLocaleString`, date-fns `format`) on the cards and
  the details page.
- Floating point: coordinates are opaque `real` constants.
- Analytics.AverageResolutionDays: returns the exact numerator and
  denominator instead of the floating-point quotient, and does not model
  `toFixed(1)`.
- Analytics.ResolutionRatePercent: returns the exact numerator and
  denominator instead of the floating-point percentage, and does not model
  `toFixed(1)`.
- Text.ToUpper: upper-cases ASCII letters only. JavaScript's
  `toUpperCase` also maps other Unicode letters, which the status names and
  seven category names never contain.
- ReportCard.CategoryLabel: capitalises only ASCII first letters, for the
  reason above; `charAt`/`slice` work on UTF-16 code units, modelled here
  as characters.
- Register.HandleSubmit: compares the password length in characters, where
  JavaScript counts UTF-16 code units.
- SubmitReport.SubmittedCategoryIsCharted: covers only categories picked
  from the corrected menu. The form starts on "infrastructure"
  (src/pages/SubmitReport.tsx:21), which the menu does not offer, so a
  submission left on that category stays uncharted even with the corrected
  menu; `SubmitReport.UnchartedSubmission` states that case.
- Register.HandleSubmit: the browser's own form checks are not modelled.
  The name, e-mail, password and confirmation inputs are marked `required`
  and the e-mail input has `type="email"` (src/pages/Register.tsx:106-142),
  so the browser refuses to call the handler while one is empty or the
  e-mail is malformed. The model takes the handler as reached with any
  field values.
- SubmitReport.HandleSubmit: the browser's `required` checks on the title
  and the description (src/pages/SubmitReport.tsx:154,167) are not
  modelled; the handler is taken as reached with any field values, empty
  ones included.
- Store.UpdateReportStatus: takes one clock reading `now` for every matching
  report, where the code reads the clock afresh for each matching report
  (src/store/useStore.ts:106). The two differ only when several reports
  share the id, which the store invariant rules out, and then only by the
  time between readings.
- Store.SetStatus: uses the one reading `now` at every matching position,
  for the reason above.
- Routes.Lookup: matches paths exactly and by one `:id` segment. React
  Router's case-insensitive matching, trailing-slash handling and ranking
  are not modelled; the table's own order already gives the same route for
  every path it names.
- SubmitReport.HandleGetLocation: the opened map tab and the error toasts
  are browser I/O. Only the fact that the form is left alone is modelled.
- The Google Maps URL opened by "Use My Location", `URL.createObjectURL`
  (photo URLs are opaque strings), and geolocation itself.
- Register.tsx reads `loading` and `error` from the store, which defines
  neither. Both are therefore always undefined, so the spinner and the
  error toast never appear; they are not modelled.
- The report details page's "Go Back" link, and the Login page and the
  header's sign-out button. These are thin callers of store `login` and
  `logout` with the same role redirect as the Register page.
- The translation helper, the landing page and the not-found page: no logic
  beyond a call into code outside this model, or static markup.
- The submission form starts on the category "infrastructure", which its own
  menu does not offer and the chart does not count. A citizen who never
  opens the menu files an uncounted report. The model keeps this default
  (`SubmitReport.DefaultCategory`) as written; `SubmitReport.UnchartedSubmission`
  covers its effect.

## Findings

| source | as written | input that shows it | evidently intended | confidence | as-written member | corrected member |
|---|---|---|---|---|---|---|
| src/pages/SubmitReport.tsx:140 | the last category option's value is "Other Issue " with a trailing space | any report filed under "Other Issue (Please Specify)" | the value "Other Issue", as the admin dashboard filter and the analytics chart spell it | high, not executed | SubmitReport.OtherIssueAsWrittenIsLost | SubmitReport.SubmittedCategoryIsCharted |
| src/pages/MapView.tsx:88-91 | the map's category selector offers infrastructure, environment, safety and other | a report filed with category "Road Damage", then selecting any map category | the seven categories of the submission menu | medium, not executed | MapView.MapOptionsMissSubmissions | MapView.EveryMenuCategoryIsSelectable |

=== FILE: admin_dashboard.dfy ===
/** The admin dashboard (src/pages/AdminDashboard.tsx): the filtered report
    list, the four statistics cards and the Clear Filters button. */
module AdminDashboard {
  import opened Types
  import Seqs
  import Queries
  import ReportFilter

  /** The two selectors of the page; both start on "all". */
  datatype Filters = Filters(status: StatusFilter, category: string)

  const InitialFilters := Filters(AllStatuses, ReportFilter.AllCategories)

  datatype Stats = Stats(total: nat, pending: nat, inProgress: nat, resolved: nat)

  /** The statistics cards. The three per-status counts partition the
      total, and the total is the length of the list. */
  function ComputeStats(rs: seq<Report>): (s: Stats)
    ensures s.total == |rs|
    ensures s.pending + s.inProgress + s.resolved == s.total
    ensures s.pending <= s.total && s.inProgress <= s.total && s.resolved <= s.total
    ensures s.pending == Queries.CountStatus(rs, Pending)
    ensures s.inProgress == Queries.CountStatus(rs, InProgress)
    ensures s.resolved == Queries.CountStatus(rs, Resolved)
  {
    Queries.StatusCountsSum(rs);
    Stats(|rs|, Queries.CountStatus(rs, Pending), Queries.CountStatus(rs, InProgress),
          Queries.CountStatus(rs, Resolved))
  }

  /** The report list the page shows under the current selectors: the
      matching reports in store order, each as often as in the list. */
  function Shown(rs: seq<Report>, f: Filters): (r: seq<Report>)
    ensures |r| <= ComputeStats(rs).total
    ensures Seqs.IsSubsequence(r, rs)
    ensures forall x :: x in r <==>
      x in rs && Admits(f.status, x.status)
      && (f.category == ReportFilter.AllCategories || x.category == f.category)
    ensures forall x :: multiset(r)[x]
                        == if ReportFilter.Keep(f.status, f.category, x) then multiset(rs)[x] else 0
  {
    ReportFilter.FilteredReportsSpec(rs, f.status, f.category);
    ReportFilter.FilteredReports(rs, f.status, f.category)
  }

  /** The Clear Filters button is offered exactly when a selector is not on
      "all"; pressing it resets both. */
  predicate ClearButtonShown(f: Filters)
  {
    f.status != AllStatuses || f.category != ReportFilter.AllCategories
  }

  function ClearFilters(f: Filters): (r: Filters)
    ensures !ClearButtonShown(r)
  {
    Filters(AllStatuses, ReportFilter.AllCategories)
  }

  /** After Clear Filters the page shows every report again, which is also
      what it shows on first render. */
  lemma ClearRestoresAll(rs: seq<Report>, f: Filters)
    ensures Shown(rs, ClearFilters(f)) == rs
    ensures Shown(rs, InitialFilters) == rs
    ensures ClearButtonShown(f) <==> f != InitialFilters
  {
    ReportFilter.FilteredAllIsIdentity(rs, AllStatuses, ReportFilter.AllCategories);
  }
}

=== FILE: analytics.dfy ===
/** The analytics page (src/pages/Analytics.tsx): reports per category and
    per status, and the guards around the resolution rate and the average
    resolution time. The floating-point values themselves are kept as exact
    numerator/denominator pairs. */
module Analytics {
  import opened Types
  import Seqs
  import Queries

  /** The category names the chart counts, in chart order. */
  const CategoryNames: seq<string> := [
    "Accident Issue", "Water Supply Issue", "Drainage Problem",
    "Street Light Problem", "Garbage Issue", "Road Damage", "Other Issue"]

  /** A chart slice: a name and how many reports it stands for. */
  datatype Entry = Entry(name: string, value: nat)

  /** One slice per name, in the order of the names. */
  function Entries(rs: seq<Report>, names: seq<string>): (es: seq<Entry>)
    ensures |es| == |names|
    ensures forall i :: 0 <= i < |names| ==>
      es[i].name == names[i] && es[i].value == |Queries.WithCategory(rs, names[i])|
  {
    seq(|names|, i requires 0 <= i < |names| => Entry(names[i], Queries.CountCategory(rs, names[i])))
  }

  function NonEmpty(): Entry -> bool
  {
    (e: Entry) => e.value > 0
  }

  /** The slices of `names` that count at least one report, in the order
      of `names`. */
  function NonEmptyEntries(rs: seq<Report>, names: seq<string>): (r: seq<Entry>)
    ensures Seqs.IsSubsequence(r, Entries(rs, names))
    ensures forall e :: e in r ==>
      e.value > 0 && e.name in names && e.value == |Queries.WithCategory(rs, e.name)|
    ensures forall i :: 0 <= i < |names| && Queries.CountCategory(rs, names[i]) > 0 ==>
      Entry(names[i], Queries.CountCategory(rs, names[i])) in r
  {
    var all := Entries(rs, names);
    assert forall i :: 0 <= i < |names| ==> all[i] in all;
    Seqs.Filter(all, NonEmpty())
  }

  /** `categoryData`: the slices of the seven names that count at least one
      report, in the fixed order. */
  function CategoryData(rs: seq<Report>): seq<Entry>
  {
    NonEmptyEntries(rs, CategoryNames)
  }

  /** The sum of the slice values. */
  function Total(es: seq<Entry>): nat
    decreases |es|
  {
    if |es| == 0 then 0 else es[0].value + Total(es[1..])
  }

  /** A report's category is one of `names`. */
  function Listed(names: seq<string>): Report -> bool
  {
    (x: Report) => x.category in names
  }

  predicate Distinct(names: seq<string>)
  {
    forall i, j :: 0 <= i < j < |names| ==> names[i] != names[j]
  }

  /** Dropping the empty slices does not change the total. */
  lemma {:induction false} TotalOfNonEmpty(es: seq<Entry>)
    ensures Total(Seqs.Filter(es, NonEmpty())) == Total(es)
    decreases |es|
  {
    if |es| > 0 {
      TotalOfNonEmpty(es[1..]);
      var rest := Seqs.Filter(es[1..], NonEmpty());
      if es[0].value > 0 {
        assert ([es[0]] + rest)[1..] == rest;
      }
    }
  }

  /** For distinct names, the slice values add up to the number of reports
      whose category is one of the names. */
  lemma {:induction false} TotalOfEntries(rs: seq<Report>, names: seq<string>)
    requires Distinct(names)
    ensures Total(Entries(rs, names)) == Seqs.Count(rs, Listed(names))
    decreases |names|
  {
    if |names| == 0 {
      Seqs.CountNone(rs, Listed(names));
    } else {
      var n := names[0];
      var ns := names[1..];
      assert Distinct(ns);
      TotalOfEntries(rs, ns);
      assert Entries(rs, names)[1..] == Entries(rs, ns);
      assert n !in ns;
      Seqs.CountDisjoint(rs, Queries.InCategory(n), Listed(ns));
      assert forall x :: x in rs ==>
        Seqs.Either(Queries.InCategory(n), Listed(ns))(x) == Listed(names)(x) by {
        assert names == [n] + ns;
      }
      Seqs.FilterAgreeing(rs, Seqs.Either(Queries.InCategory(n), Listed(ns)), Listed(names));
    }
  }

  /** For distinct names, the chart covers the reports whose category is one
      of the names: never more than all reports, and all of them exactly when
      no report carries an unlisted category string. */
  lemma NonEmptyEntriesTotal(rs: seq<Report>, names: seq<string>)
    requires Distinct(names)
    ensures Total(NonEmptyEntries(rs, names)) == Seqs.Count(rs, Listed(names))
    ensures Total(NonEmptyEntries(rs, names)) <= |rs|
    ensures Total(NonEmptyEntries(rs, names)) == |rs| <==> forall x :: x in rs ==> x.category in names
  {
    TotalOfNonEmpty(Entries(rs, names));
    TotalOfEntries(rs, names);
    Seqs.CountAllIff(rs, Listed(names));
  }

  lemma CategoryNamesDistinct()
    ensures Distinct(CategoryNames)
  {
  }

  /** The category chart of the page: never more than all reports, all of
      them exactly when every category string is one of the seven names. */
  lemma CategoryTotal(rs: seq<Report>)
    ensures Total(CategoryData(rs)) == Seqs.Count(rs, Listed(CategoryNames))
    ensures Total(CategoryData(rs)) <= |rs|
    ensures Total(CategoryData(rs)) == |rs| <==> forall x :: x in rs ==> x.category in CategoryNames
  {
    CategoryNamesDistinct();
    NonEmptyEntriesTotal(rs, CategoryNames);
  }

  /** Adding one report adds one to the chart total exactly when its
      category is one of the seven names. */
  lemma CategoryTotalAppend(rs: seq<Report>, x: Report)
    ensures Total(CategoryData(rs + [x]))
            == Total(CategoryData(rs)) + (if x.category in CategoryNames then 1 else 0)
  {
    CategoryTotal(rs);
    CategoryTotal(rs + [x]);
    Seqs.FilterAppend(rs, [x], Listed(CategoryNames));
  }

  /** `statusData`: three bars in the order Pending, In Progress, Resolved,
      each counting the reports with its status, adding up to the number of
      reports. */
  function StatusData(rs: seq<Report>): (r: seq<(string, nat)>)
    ensures |r| == 3
    ensures r[0].0 == "Pending" && r[1].0 == "In Progress" && r[2].0 == "Resolved"
    ensures r[0].1 == Queries.CountStatus(rs, Pending)
    ensures r[1].1 == Queries.CountStatus(rs, InProgress)
    ensures r[2].1 == Queries.CountStatus(rs, Resolved)
    ensures r[0].1 + r[1].1 + r[2].1 == |rs|
  {
    Queries.StatusCountsSum(rs);
    [("Pending", Queries.CountStatus(rs, Pending)),
     ("In Progress", Queries.CountStatus(rs, InProgress)),
     ("Resolved", Queries.CountStatus(rs, Resolved))]
  }

  /** The resolved reports whose times feed the average, in store order,
      each as often as it occurs in the list. */
  function ResolvedReports(rs: seq<Report>): (r: seq<Report>)
    ensures |r| == StatusData(rs)[2].1
    ensures forall x :: x in r <==> x in rs && x.status == Resolved
    ensures Seqs.IsSubsequence(r, rs)
    ensures forall x :: multiset(r)[x] == if x.status == Resolved then multiset(rs)[x] else 0
  {
    Queries.WithStatus(rs, Resolved)
  }

  /** A guarded quotient: zero when the guard fails, otherwise the exact
      numerator over a positive denominator. */
  datatype Quotient = Zero | Ratio(numerator: int, denominator: nat)

  const MillisPerDay: nat := 1000 * 60 * 60 * 24

  /** The clock units in `days` days. */
  function DaysInMillis(days: nat): nat
  {
    days * MillisPerDay
  }

  /** The summed resolution time of a list, in clock units. */
  function ElapsedSum(rs: seq<Report>): int
    decreases |rs|
  {
    if |rs| == 0 then 0
    else (rs[0].updatedAt - rs[0].createdAt) + ElapsedSum(rs[1..])
  }

  lemma {:induction false} ElapsedSumNonNegative(rs: seq<Report>)
    requires forall i :: 0 <= i < |rs| ==> rs[i].createdAt <= rs[i].updatedAt
    ensures ElapsedSum(rs) >= 0
    decreases |rs|
  {
    if |rs| > 0 {
      ElapsedSumNonNegative(rs[1..]);
    }
  }

  /** Average resolution time in days: computed only when some report is
      resolved, as total elapsed time over count times a day. */
  function AverageResolutionDays(rs: seq<Report>): (q: Quotient)
    ensures q.Ratio? <==> |ResolvedReports(rs)| > 0
    ensures q.Ratio? ==> q.denominator == DaysInMillis(|ResolvedReports(rs)|)
    ensures q.Ratio? ==> q.numerator == ElapsedSum(ResolvedReports(rs))
  {
    var resolved := ResolvedReports(rs);
    if |resolved| > 0 then Ratio(ElapsedSum(resolved), DaysInMillis(|resolved|)) else Zero
  }

  /** When no report was updated before its creation, the average is never
      negative. */
  lemma AverageNonNegative(rs: seq<Report>)
    requires forall x :: x in rs ==> x.createdAt <= x.updatedAt
    ensures AverageResolutionDays(rs).Ratio? ==> AverageResolutionDays(rs).numerator >= 0
  {
    var resolved := ResolvedReports(rs);
    assert forall i :: 0 <= i < |resolved| ==> resolved[i] in resolved;
    ElapsedSumNonNegative(resolved);
  }

  /** Resolution rate in percent: computed only for a non-empty list, as
      resolved times a hundred over total, so it lies between 0 and 100. */
  function ResolutionRatePercent(rs: seq<Report>): (q: Quotient)
    ensures q.Ratio? <==> |rs| > 0
    ensures q.Ratio? ==> q.denominator == |rs|
    ensures q.Ratio? ==> 0 <= q.numerator <= 100 * q.denominator
    ensures q.Ratio? ==> q.numerator == 100 * |ResolvedReports(rs)|
  {
    var total := |rs|;
    if total > 0 then Ratio(|ResolvedReports(rs)| * 100, total) else Zero
  }
}

=== FILE: citizen_dashboard.dfy ===
/** The citizen dashboard (src/pages/CitizenDashboard.tsx): the signed-in
    citizen's own reports, the status tab and the per-status counts. */
module CitizenDashboard {
  import opened Types
  import Seqs
  import Queries

  datatype View = View(
    userReports: seq<Report>,
    shown: seq<Report>,
    pending: nat,
    inProgress: nat,
    resolved: nat)

  /** The list under the status tab: the whole list on "all", otherwise the
      reports with that status. */
  function TabFilter(userReports: seq<Report>, tab: StatusFilter): seq<Report>
  {
    if tab.AllStatuses? then userReports
    else Queries.WithStatus(userReports, tab.status)
  }

  /** What the page computes; nothing without a signed-in user. */
  function Render(user: Option<User>, rs: seq<Report>, tab: StatusFilter): (v: Option<View>)
    ensures v.None? <==> user.None?
    ensures v.Some? ==> v.value.pending == Queries.CountStatus(v.value.userReports, Pending)
    ensures v.Some? ==> v.value.inProgress == Queries.CountStatus(v.value.userReports, InProgress)
    ensures v.Some? ==> v.value.resolved == Queries.CountStatus(v.value.userReports, Resolved)
    ensures v.Some? ==> v.value.pending + v.value.inProgress + v.value.resolved
                        == |v.value.userReports|
  {
    if user.None? then None
    else
      var mine := Queries.ByCitizen(rs, user.value.id);
      Queries.StatusCountsSum(mine);
      Some(View(mine, TabFilter(mine, tab),
                Queries.CountStatus(mine, Pending),
                Queries.CountStatus(mine, InProgress),
                Queries.CountStatus(mine, Resolved)))
  }

  /** Every listed report belongs to the signed-in citizen; the own list is
      exactly the reports with that author, in store order; and the tab
      list is exactly the own reports the tab admits, in store order. Each
      listed report occurs as often as in the store. */
  lemma ViewContents(user: User, rs: seq<Report>, tab: StatusFilter)
    ensures var v := Render(Some(user), rs, tab).value;
      && Seqs.IsSubsequence(v.userReports, rs)
      && (forall x :: x in v.userReports <==> x in rs && x.citizenId == user.id)
      && Seqs.IsSubsequence(v.shown, v.userReports)
      && (forall x :: x in v.shown <==> x in rs && x.citizenId == user.id && Admits(tab, x.status))
      && (tab == AllStatuses ==> v.shown == v.userReports)
      && (forall x :: multiset(v.userReports)[x]
                      == if x.citizenId == user.id then multiset(rs)[x] else 0)
      && (forall x :: multiset(v.shown)[x]
                      == if x.citizenId == user.id && Admits(tab, x.status) then multiset(rs)[x] else 0)
  {
    var mine := Queries.ByCitizen(rs, user.id);
    if tab.OnlyStatus? {
      assert Seqs.IsSubsequence(TabFilter(mine, tab), mine);
    } else {
      Seqs.SubsequenceReflexive(mine);
    }
  }

  /** A report is the citizen's and has status `s`. */
  function AuthoredWithStatus(uid: string, s: Status): Report -> bool
  {
    (x: Report) => x.citizenId == uid && x.status == s
  }

  /** A status tab lists the same reports as filtering the whole store by
      author and status together. */
  lemma TabIsAuthorAndStatus(user: User, rs: seq<Report>, s: Status)
    ensures Render(Some(user), rs, OnlyStatus(s)).value.shown
            == Seqs.Filter(rs, AuthoredWithStatus(user.id, s))
  {
    var p := Queries.AuthoredBy(user.id);
    var q := Queries.HasStatus(s);
    assert Render(Some(user), rs, OnlyStatus(s)).value.shown == Seqs.Filter(Seqs.Filter(rs, p), q);
    Seqs.FilterFilter(rs, p, q);
    Seqs.FilterAgreeing(rs, Seqs.Both(p, q), AuthoredWithStatus(user.id, s));
  }
}

=== FILE: filters.dfy ===
/** The status/category filter that the admin dashboard and the map view
    both apply to the full report list. */
module ReportFilter {
  import opened Types
  import Seqs

  /** The category selector value meaning "every category". */
  const AllCategories := "all"

  /** The filter callback: reject on a status mismatch, then on a category
      mismatch, otherwise keep. */
  function Keep(sf: StatusFilter, cf: string, r: Report): (b: bool)
    ensures b <==> Admits(sf, r.status) && (cf == AllCategories || r.category == cf)
  {
    if sf.OnlyStatus? && r.status != sf.status then false
    else if cf != AllCategories && r.category != cf then false
    else true
  }

  function FilteredReports(rs: seq<Report>, sf: StatusFilter, cf: string): seq<Report>
  {
    Seqs.Filter(rs, (r: Report) => Keep(sf, cf, r))
  }

  /** The filtered list is an order-preserving subsequence of the reports,
      a report is in it exactly when it matches both selectors, and a
      matching report occurs in it as often as in the list. */
  lemma FilteredReportsSpec(rs: seq<Report>, sf: StatusFilter, cf: string)
    ensures Seqs.IsSubsequence(FilteredReports(rs, sf, cf), rs)
    ensures |FilteredReports(rs, sf, cf)| <= |rs|
    ensures forall r :: r in FilteredReports(rs, sf, cf) <==>
      r in rs && Admits(sf, r.status) && (cf == AllCategories || r.category == cf)
    ensures forall r :: multiset(FilteredReports(rs, sf, cf))[r]
                        == if Keep(sf, cf, r) then multiset(rs)[r] else 0
  {
    Seqs.FilterMultiset(rs, (r: Report) => Keep(sf, cf, r));
  }

  /** With both selectors on "all" the filtered list is the whole list, and
      it is the whole list only when every report matches. */
  lemma FilteredAllIsIdentity(rs: seq<Report>, sf: StatusFilter, cf: string)
    ensures sf == AllStatuses && cf == AllCategories ==> FilteredReports(rs, sf, cf) == rs
    ensures FilteredReports(rs, sf, cf) == rs <==> forall r :: r in rs ==> Keep(sf, cf, r)
  {
    Seqs.FilterKeepsAllIff(rs, (r: Report) => Keep(sf, cf, r));
  }
}

=== FILE: map_view.dfy ===
/** The map view (src/pages/MapView.tsx): the same status/category filter as
    the admin dashboard, and the "Showing X of Y reports" line. */
module MapView {
  import opened Types
  import Seqs
  import ReportFilter
  import SubmitReport

  /** The category values the map's selector offers, as written. */
  const CategoryOptions: seq<string> := ["infrastructure", "environment", "safety", "other"]

  /** The markers placed on the map: the matching reports in store order,
      each as often as in the list. */
  function Markers(rs: seq<Report>, sf: StatusFilter, cf: string): (r: seq<Report>)
    ensures Seqs.IsSubsequence(r, rs)
    ensures forall x :: x in r <==>
      x in rs && Admits(sf, x.status) && (cf == ReportFilter.AllCategories || x.category == cf)
    ensures forall x :: multiset(r)[x] == if ReportFilter.Keep(sf, cf, x) then multiset(rs)[x] else 0
  {
    ReportFilter.FilteredReportsSpec(rs, sf, cf);
    ReportFilter.FilteredReports(rs, sf, cf)
  }

  /** "Showing X of Y reports": X is the number of markers and Y the number
      of reports, so X never exceeds Y and reaches it exactly when every
      report passes the selectors. */
  function Showing(rs: seq<Report>, sf: StatusFilter, cf: string): (r: (nat, nat))
    ensures r.0 == |Markers(rs, sf, cf)|
    ensures r.1 == |rs|
    ensures r.0 <= r.1
    ensures r.0 == r.1 <==> forall x :: x in rs ==> ReportFilter.Keep(sf, cf, x)
  {
    Seqs.CountAllIff(rs, (x: Report) => ReportFilter.Keep(sf, cf, x));
    (|Markers(rs, sf, cf)|, |rs|)
  }

  /** A category selection keeps only reports whose category string equals
      it exactly; with both selectors on "all" every report is a marker. */
  lemma CategorySelectionIsExact(rs: seq<Report>, c: string)
    requires c != ReportFilter.AllCategories
    ensures forall x :: x in Markers(rs, AllStatuses, c) <==> x in rs && x.category == c
    ensures Markers(rs, AllStatuses, ReportFilter.AllCategories) == rs
  {
    ReportFilter.FilteredAllIsIdentity(rs, AllStatuses, ReportFilter.AllCategories);
  }

  /** As written, no value of the map's category selector is a category
      the submission menu produces, so selecting any of them hides every
      report filed through that menu. */
  lemma MapOptionsMissSubmissions(rs: seq<Report>, c: string, x: Report)
    requires c in CategoryOptions
    requires x.category in SubmitReport.CategoryOptionsAsWritten
    ensures x !in Markers(rs, AllStatuses, c)
  {
  }

  /** The selector offering the submission menu's categories, spelled as
      the chart spells them. */
  const CorrectedCategoryOptions: seq<string> := SubmitReport.CategoryOptions

  /** With the corrected selector every report filed through the corrected
      menu can be singled out: the selector offers an option under which
      the report is a marker, namely its own category. */
  lemma EveryMenuCategoryIsSelectable(rs: seq<Report>, x: Report)
    requires x in rs && x.category in SubmitReport.CategoryOptions
    ensures exists c :: c in CorrectedCategoryOptions && x in Markers(rs, AllStatuses, c)
    ensures x in Markers(rs, AllStatuses, x.category)
  {
    SubmitReport.CategoryOptionsNotAll();
    assert x in Markers(rs, AllStatuses, x.category);
  }
}

=== FILE: queries.dfy ===
/** The list queries the pages run over the report store: by status, by
    author, by category and by id. */
module Queries {
  import opened Types
  import Seqs

  /** The selection tests the pages pass to the list filter. */
  function HasStatus(s: Status): Report -> bool
  {
    (x: Report) => x.status == s
  }

  function AuthoredBy(uid: string): Report -> bool
  {
    (x: Report) => x.citizenId == uid
  }

  function InCategory(c: string): Report -> bool
  {
    (x: Report) => x.category == c
  }

  /** The reports with status `s`, in store order, each as often as it
      occurs in the list. */
  function WithStatus(rs: seq<Report>, s: Status): (r: seq<Report>)
    ensures forall x :: x in r <==> x in rs && x.status == s
    ensures Seqs.IsSubsequence(r, rs)
    ensures forall x :: multiset(r)[x] == if x.status == s then multiset(rs)[x] else 0
  {
    Seqs.FilterMultiset(rs, HasStatus(s));
    Seqs.Filter(rs, HasStatus(s))
  }

  function CountStatus(rs: seq<Report>, s: Status): nat
  {
    |WithStatus(rs, s)|
  }

  /** Status is a closed three-value type, so the three per-status counts
      partition the list. */
  lemma {:induction false} StatusCountsSum(rs: seq<Report>)
    ensures CountStatus(rs, Pending) + CountStatus(rs, InProgress)
            + CountStatus(rs, Resolved) == |rs|
    decreases |rs|
  {
    if |rs| > 0 {
      StatusCountsSum(rs[1..]);
    }
  }

  /** Each per-status count is bounded by the length of the list. */
  lemma CountStatusBounded(rs: seq<Report>, s: Status)
    ensures CountStatus(rs, s) <= |rs|
  {
  }

  /** Appending a report adds one to its own status's count and leaves
      the other counts alone. */
  lemma CountStatusAppend(rs: seq<Report>, x: Report, s: Status)
    ensures CountStatus(rs + [x], s)
            == CountStatus(rs, s) + (if x.status == s then 1 else 0)
  {
    Seqs.FilterAppend(rs, [x], HasStatus(s));
  }

  /** The reports authored by citizen `uid`, in store order, each as often
      as it occurs in the list. */
  function ByCitizen(rs: seq<Report>, uid: string): (r: seq<Report>)
    ensures forall x :: x in r <==> x in rs && x.citizenId == uid
    ensures Seqs.IsSubsequence(r, rs)
    ensures forall x :: multiset(r)[x] == if x.citizenId == uid then multiset(rs)[x] else 0
  {
    Seqs.FilterMultiset(rs, AuthoredBy(uid));
    Seqs.Filter(rs, AuthoredBy(uid))
  }

  /** The reports whose category string is exactly `c`, in store order,
      each as often as it occurs in the list. */
  function WithCategory(rs: seq<Report>, c: string): (r: seq<Report>)
    ensures forall x :: x in r <==> x in rs && x.category == c
    ensures Seqs.IsSubsequence(r, rs)
    ensures forall x :: multiset(r)[x] == if x.category == c then multiset(rs)[x] else 0
  {
    Seqs.FilterMultiset(rs, InCategory(c));
    Seqs.Filter(rs, InCategory(c))
  }

  function CountCategory(rs: seq<Report>, c: string): nat
  {
    |WithCategory(rs, c)|
  }

  /** The first report whose id is `id`, if any. */
  function FindById(rs: seq<Report>, id: string): (r: Option<Report>)
    ensures r.None? <==> forall i :: 0 <= i < |rs| ==> rs[i].id != id
    ensures r.Some? ==> exists k :: 0 <= k < |rs| && rs[k] == r.value
                         && FirstWithId(rs, id, k)
    decreases |rs|
  {
    if |rs| == 0 then None
    else if rs[0].id == id then
      assert FirstWithId(rs, id, 0);
      Some(rs[0])
    else
      var r := FindById(rs[1..], id);
      if r.Some? then
        var k :| 0 <= k < |rs[1..]| && rs[1..][k] == r.value
                 && FirstWithId(rs[1..], id, k);
        assert FirstWithId(rs, id, k + 1);
        r
      else
        assert forall i :: 1 <= i < |rs| ==> rs[i] == rs[1..][i - 1];
        r
  }

  /** Position `k` holds the first report with id `id`. */
  predicate FirstWithId(rs: seq<Report>, id: string, k: nat)
  {
    k < |rs| && rs[k].id == id && forall j :: 0 <= j < k ==> rs[j].id != id
  }
}

=== FILE: register.dfy ===
/** The registration page (src/pages/Register.tsx): the password checks in
    front of the store's `register`, and the redirect of a signed-in user
    to their own dashboard. */
module Register {
  import opened Types
  import Store
  import Routes

  datatype Form = Form(
    name: string,
    email: string,
    password: string,
    confirmPassword: string,
    role: Role)

  /** The form starts empty, with the citizen role selected. */
  const InitialForm := Form("", "", "", "", Citizen)

  const MinPasswordLength := 6

  /** Why the submit handler stops before calling the store. */
  datatype RegisterError = PasswordMismatch | PasswordTooShort

  /** The submit handler: a mismatch is reported first, then a short
      password; otherwise the store registers the user with the form's
      name, e-mail, password and role. */
  function HandleSubmit(st: Store.State, f: Form, stamp: nat): (r: Result<Store.State, RegisterError>)
    ensures r.Ok? <==> f.password == f.confirmPassword && |f.password| >= MinPasswordLength
    ensures f.password != f.confirmPassword ==> r == Err(PasswordMismatch)
    ensures f.password == f.confirmPassword && |f.password| < MinPasswordLength
            ==> r == Err(PasswordTooShort)
    ensures r.Ok? ==> r.value == Store.Register(st, f.name, f.email, f.password, f.role, stamp).0
  {
    if f.password != f.confirmPassword then Err(PasswordMismatch)
    else if |f.password| < MinPasswordLength then Err(PasswordTooShort)
    else Ok(Store.Register(st, f.name, f.email, f.password, f.role, stamp).0)
  }

  /** The effect that runs whenever a user is present: admins go to the
      admin dashboard, everyone else to the citizen dashboard. */
  function RedirectIfSignedIn(user: Option<User>): (r: Option<string>)
    ensures r.None? <==> user.None?
    ensures user.Some? && user.value.role == Admin ==> r == Some(Routes.AdminDashboardPath)
    ensures user.Some? && user.value.role != Admin ==> r == Some(Routes.CitizenDashboardPath)
  {
    if user.None? then None
    else if user.value.role == Admin then Some(Routes.AdminDashboardPath)
    else Some(Routes.CitizenDashboardPath)
  }

  /** The page's redirect agrees with the guard's: both send a user to the
      dashboard of their role, and the guard lets them in there. */
  lemma RedirectIsOwnDashboard(user: User)
    ensures RedirectIfSignedIn(Some(user)) == Some(Routes.DashboardFor(user.role))
    ensures Routes.Visit(Some(user), RedirectIfSignedIn(Some(user)).value) == Routes.Render
  {
    Routes.DashboardRouteRequiresOwnRole(user.role);
  }

  /** A successful registration signs in a user of the chosen role, who is
      then sent to that role's dashboard and admitted there; with the form's
      default role that is the citizen dashboard. */
  lemma RegistrationLandsOnOwnDashboard(st: Store.State, f: Form, stamp: nat)
    requires HandleSubmit(st, f, stamp).Ok?
    ensures var st' := HandleSubmit(st, f, stamp).value;
      && st'.user.Some? && st'.user.value.role == f.role
      && RedirectIfSignedIn(st'.user) == Some(Routes.DashboardFor(f.role))
      && Routes.Visit(st'.user, Routes.DashboardFor(f.role)) == Routes.Render
      && (f.role == InitialForm.role ==> RedirectIfSignedIn(st'.user) == Some(Routes.CitizenDashboardPath))
  {
    var st' := HandleSubmit(st, f, stamp).value;
    RedirectIsOwnDashboard(st'.user.value);
  }
}

=== FILE: report_card.dfy ===
/** The report card (src/components/ReportCard.tsx): the status badge, the
    capitalised category, and the thumbnail with its "+n" overflow count. */
module ReportCard {
  import opened Types
  import Text

  /** The badge colour classes: one per status name, muted for any other
      string. */
  function StatusColor(status: string): string
  {
    match status
    case "pending" => "bg-destructive text-destructive-foreground"
    case "in-progress" => "bg-secondary text-secondary-foreground"
    case "resolved" => "bg-accent text-accent-foreground"
    case _ => "bg-muted text-muted-foreground"
  }

  /** The three statuses get three distinct classes, none of them the muted
      one, and the muted class marks exactly the strings that are no
      status. */
  lemma StatusColorSpec(a: Status, b: Status, name: string)
    ensures a != b ==> StatusColor(StatusName(a)) != StatusColor(StatusName(b))
    ensures StatusColor(name) == "bg-muted text-muted-foreground" <==> StatusFromName(name).None?
  {
  }

  /** The category badge: the first character upper-cased, the rest as
      stored; the empty string stays empty. */
  function CategoryLabel(category: string): (r: string)
    ensures |r| == |category|
    ensures |category| > 0 ==> r[0] == Text.UpperChar(category[0])
    ensures |category| > 0 ==> r[1..] == category[1..]
  {
    if |category| == 0 then "" else [Text.UpperChar(category[0])] + category[1..]
  }

  /** Capitalising twice is capitalising once. */
  lemma CategoryLabelIdempotent(category: string)
    ensures CategoryLabel(CategoryLabel(category)) == CategoryLabel(category)
  {
    if |category| > 0 {
      var c := Text.UpperChar(category[0]);
      assert Text.UpperChar(c) == c;
    }
  }

  /** The thumbnail: the first photo, when there is any. */
  function Thumbnail(photos: seq<string>): (r: Option<string>)
    ensures r.None? <==> |photos| == 0
    ensures r.Some? ==> r.value == photos[0]
  {
    if |photos| > 0 then Some(photos[0]) else None
  }

  /** The "+n" marker over the thumbnail: the photos beyond the first, shown
      only when there are some. */
  function Overflow(photos: seq<string>): (r: Option<nat>)
    ensures r.Some? <==> |photos| > 1
    ensures r.Some? ==> r.value > 0
  {
    if |photos| > 1 then Some(|photos| - 1) else None
  }

  /** The thumbnail and the marker together account for every photo, and the
      marker never shows without a thumbnail. */
  lemma PhotosAccountedFor(photos: seq<string>)
    ensures Overflow(photos).Some? ==> Thumbnail(photos).Some?
    ensures (if Thumbnail(photos).Some? then 1 else 0)
            + (if Overflow(photos).Some? then Overflow(photos).value else 0) == |photos|
  {
  }

  /** The badge text: the status name with its first '-' turned into a
      space. */
  function BadgeText(s: Status): (r: string)
    ensures |r| == |StatusName(s)|
    ensures forall i :: 0 <= i < |r| ==>
      r[i] == (if StatusName(s)[i] == '-' then ' ' else StatusName(s)[i])
    ensures '-' !in r
  {
    var name := StatusName(s);
    OneDashAtMost(s);
    Text.ReplaceOnlyOccurrence(name, '-', ' ');
    Text.ReplaceFirst(name, '-', ' ')
  }

  /** Distinct statuses get distinct badge texts, and a badge text reads
      back as its status once its space is turned back into '-'. */
  lemma BadgeTextFaithful(a: Status, b: Status)
    ensures a != b ==> BadgeText(a) != BadgeText(b)
    ensures Text.ReplaceFirst(BadgeText(a), ' ', '-') == StatusName(a)
  {
    NoSpaceInName(a);
    Text.ReplaceFirstUndone(StatusName(a), '-', ' ');
  }

  lemma NoSpaceInName(s: Status)
    ensures ' ' !in StatusName(s)
  {
  }

  /** No status name carries more than one '-'. */
  lemma OneDashAtMost(s: Status)
    ensures forall i, j :: 0 <= i < j < |StatusName(s)| ==>
      StatusName(s)[i] != '-' || StatusName(s)[j] != '-'
  {
  }
}

=== FILE: report_details.dfy ===
/** The report details page (src/pages/ReportDetails.tsx): the report shown
    for a route id, the status selector and its Update button, the status
    colour and the upper-case status label. */
module ReportDetails {
  import opened Types
  import Text
  import Queries
  import Store

  /** The report the page shows: the first with the route id, if any. */
  function Shown(rs: seq<Report>, routeId: string): Option<Report>
  {
    Queries.FindById(rs, routeId)
  }

  /** The first position with id `id` is unique. */
  lemma FirstWithIdUnique(rs: seq<Report>, id: string, k1: nat, k2: nat)
    requires Queries.FirstWithId(rs, id, k1) && Queries.FirstWithId(rs, id, k2)
    ensures k1 == k2
  {
  }

  /** The shown report is the first with the route id, and nothing is shown
      when no report has it. */
  lemma ShownIsFirstMatch(rs: seq<Report>, routeId: string, k: nat)
    requires Queries.FirstWithId(rs, routeId, k)
    ensures Shown(rs, routeId) == Some(rs[k])
  {
    var r := Shown(rs, routeId);
    var k' :| 0 <= k' < |rs| && rs[k'] == r.value && Queries.FirstWithId(rs, routeId, k');
    FirstWithIdUnique(rs, routeId, k, k');
  }

  /** The selector's starting value: the shown report's status, or pending
      when there is no report. */
  function InitialNewStatus(found: Option<Report>): (s: Status)
    ensures found.Some? ==> s == found.value.status
    ensures found.None? ==> s == Pending
  {
    if found.Some? then found.value.status else Pending
  }

  /** The Update button is disabled while the selection equals the current
      status. */
  predicate UpdateDisabled(newStatus: Status, report: Report)
  {
    newStatus == report.status
  }

  /** The Update button's handler: writes the selected status to the store
      only when it differs from the current one. Without a report the page
      has no button, so nothing changes. */
  function HandleStatusUpdate(st: Store.State, routeId: string, newStatus: Status,
                              now: nat): (r: Store.State)
    ensures r.user == st.user
    ensures r == st <==> Shown(st.reports, routeId).None?
                         || UpdateDisabled(newStatus, Shown(st.reports, routeId).value)
    ensures Shown(st.reports, routeId).Some?
            && !UpdateDisabled(newStatus, Shown(st.reports, routeId).value)
            ==> r == Store.UpdateReportStatus(st, routeId, newStatus, now)
  {
    var found := Shown(st.reports, routeId);
    if found.Some? && newStatus != found.value.status then
      var r := Store.UpdateReportStatus(st, found.value.id, newStatus, now);
      var k :| 0 <= k < |st.reports| && st.reports[k] == found.value
               && Queries.FirstWithId(st.reports, routeId, k);
      assert r.reports[k].status != st.reports[k].status;
      r
    else
      st
  }

  /** The status panel, and with it the Update button, is shown to admins
      only. */
  predicate UpdatePanelShown(user: Option<User>)
  {
    user.Some? && user.value.role == Admin
  }

  /** Pressing Update as the page offers it: the store changes exactly when
      an admin is signed in, the route id names a report and the selection
      differs from its status, and then it is the store's status update for
      the route id. */
  function PressUpdate(st: Store.State, routeId: string, newStatus: Status, now: nat)
    : (r: Store.State)
    ensures r.user == st.user
    ensures r != st <==> UpdatePanelShown(st.user) && Shown(st.reports, routeId).Some?
                         && !UpdateDisabled(newStatus, Shown(st.reports, routeId).value)
    ensures r != st ==> r == Store.UpdateReportStatus(st, routeId, newStatus, now)
  {
    if UpdatePanelShown(st.user) then HandleStatusUpdate(st, routeId, newStatus, now) else st
  }

  /** After a successful update the page shows the same report with the new
      status and the update time. */
  lemma UpdateThenShown(st: Store.State, routeId: string, newStatus: Status, now: nat)
    requires Shown(st.reports, routeId).Some?
    ensures Shown(HandleStatusUpdate(st, routeId, newStatus, now).reports, routeId).Some?
    ensures Shown(HandleStatusUpdate(st, routeId, newStatus, now).reports, routeId).value.status
            == newStatus
    ensures Shown(HandleStatusUpdate(st, routeId, newStatus, now).reports, routeId).value.id
            == routeId
  {
    var found := Shown(st.reports, routeId).value;
    var k :| 0 <= k < |st.reports| && st.reports[k] == found
             && Queries.FirstWithId(st.reports, routeId, k);
    var r := HandleStatusUpdate(st, routeId, newStatus, now);
    assert forall i :: 0 <= i < |st.reports| ==> r.reports[i].id == st.reports[i].id;
    assert Queries.FirstWithId(r.reports, routeId, k);
    ShownIsFirstMatch(r.reports, routeId, k);
  }

  /** The status chip colour: one class per status, grey for anything else. */
  function StatusColor(status: string): string
  {
    match status
    case "pending" => "bg-yellow-500"
    case "in-progress" => "bg-blue-500"
    case "resolved" => "bg-green-500"
    case _ => "bg-gray-500"
  }

  /** The three statuses get three distinct colours, none of them grey, and
      grey marks exactly the strings that are no status. */
  lemma StatusColorSpec(a: Status, b: Status, name: string)
    ensures a != b ==> StatusColor(StatusName(a)) != StatusColor(StatusName(b))
    ensures StatusColor(name) == "bg-gray-500" <==> StatusFromName(name).None?
  {
  }

  /** The chip text: the first '-' becomes a space, then all upper case. */
  function StatusLabel(s: Status): string
  {
    Text.ToUpper(Text.ReplaceFirst(StatusName(s), '-', ' '))
  }

  /** Upper-casing the three badge texts. Each lemma takes the text as a
      parameter fixed by its `requires` rather than as a literal in the
      `ensures`: with the literal written there, the prover expands the
      comprehension behind `ToUpper` over the whole literal and runs out
      of resources, while the parameter lets the proof go index by index. */
  lemma UpperPending(s: string)
    requires s == "pending"
    ensures Text.ToUpper(s) == "PENDING"
  {
    var u := Text.ToUpper(s);
    assert forall i :: 0 <= i < 7 ==> u[i] == "PENDING"[i];
  }

  lemma UpperInProgress(s: string)
    requires s == "in progress"
    ensures Text.ToUpper(s) == "IN PROGRESS"
  {
    var u := Text.ToUpper(s);
    assert forall i :: 0 <= i < 11 ==> u[i] == "IN PROGRESS"[i];
  }

  lemma UpperResolved(s: string)
    requires s == "resolved"
    ensures Text.ToUpper(s) == "RESOLVED"
  {
    var u := Text.ToUpper(s);
    assert forall i :: 0 <= i < 8 ==> u[i] == "RESOLVED"[i];
  }

  /** The chip shows PENDING, IN PROGRESS and RESOLVED. */
  lemma StatusLabelPending()
    ensures StatusLabel(Pending) == "PENDING"
  {
    Text.ReplaceFirstAbsent("pending", '-', ' ');
    UpperPending("pending");
  }

  lemma StatusLabelInProgress()
    ensures StatusLabel(InProgress) == "IN PROGRESS"
  {
    Text.ReplaceFirstAt("in-progress", '-', ' ', 2, "in progress");
    UpperInProgress("in progress");
  }

  lemma StatusLabelResolved()
    ensures StatusLabel(Resolved) == "RESOLVED"
  {
    Text.ReplaceFirstAbsent("resolved", '-', ' ');
    UpperResolved("resolved");
  }
}

=== FILE: routes.dfy ===
/** The route table and the `ProtectedRoute` guard (src/App.tsx): which
    page a path reaches and whether the signed-in user may see it. */
module Routes {
  import opened Types

  /** A route path: a fixed path, a fixed prefix followed by one `:id`
      segment, or the catch-all `*`. */
  datatype Pattern = Exact(path: string) | WithParam(prefix: string) | CatchAll

  /** Public routes render for anyone; protected ones go through the guard,
      with or without a required role. */
  datatype Guard = Public | Protected(required: Option<Role>)

  datatype Route = Route(pattern: Pattern, guard: Guard)

  const LoginPath := "/login"
  const CitizenDashboardPath := "/citizen/dashboard"
  const AdminDashboardPath := "/admin/dashboard"
  const ReportPrefix := "/admin/reports/"

  /** The routes in declaration order; the catch-all comes last. */
  const Table: seq<Route> := [
    Route(Exact("/"), Public),
    Route(Exact(LoginPath), Public),
    Route(Exact("/register"), Public),
    Route(Exact(CitizenDashboardPath), Protected(Some(Citizen))),
    Route(Exact("/submit-report"), Protected(Some(Citizen))),
    Route(Exact(AdminDashboardPath), Protected(Some(Admin))),
    Route(Exact("/admin/map"), Protected(Some(Admin))),
    Route(WithParam(ReportPrefix), Protected(None)),
    Route(Exact("/admin/analytics"), Protected(Some(Admin))),
    Route(CatchAll, Public)]

  /** A parameter segment is non-empty and holds no '/'. */
  predicate Matches(p: Pattern, path: string)
  {
    match p
    case Exact(s) => path == s
    case WithParam(prefix) =>
      |path| > |prefix| && path[..|prefix|] == prefix && '/' !in path[|prefix|..]
    case CatchAll => true
  }

  /** The first route of `routes` whose pattern matches `path`. */
  function FirstMatch(routes: seq<Route>, path: string): (r: Option<nat>)
    ensures r.None? <==> forall i :: 0 <= i < |routes| ==> !Matches(routes[i].pattern, path)
    ensures r.Some? ==> r.value < |routes| && Matches(routes[r.value].pattern, path)
    ensures r.Some? ==> forall i :: 0 <= i < r.value ==> !Matches(routes[i].pattern, path)
    decreases |routes|
  {
    if |routes| == 0 then None
    else if Matches(routes[0].pattern, path) then Some(0)
    else
      var r := FirstMatch(routes[1..], path);
      if r.Some? then Some(r.value + 1) else None
  }

  /** The first match is pinned down by its position alone. */
  lemma {:induction false} FirstMatchAt(routes: seq<Route>, path: string, k: nat)
    requires k < |routes| && Matches(routes[k].pattern, path)
    requires forall i :: 0 <= i < k ==> !Matches(routes[i].pattern, path)
    ensures FirstMatch(routes, path) == Some(k)
    decreases k
  {
    if k > 0 {
      FirstMatchAt(routes[1..], path, k - 1);
    }
  }

  /** The route a path reaches: always one, thanks to the catch-all. */
  function Lookup(path: string): (r: Route)
    ensures r in Table && Matches(r.pattern, path)
  {
    var k := FirstMatch(Table, path);
    assert Matches(Table[|Table| - 1].pattern, path);
    Table[k.value]
  }

  /** Where the guard sends a signed-in user of a role that is not
      allowed. */
  function DashboardFor(role: Role): string
  {
    if role == Admin then AdminDashboardPath else CitizenDashboardPath
  }

  datatype Decision = Render | Redirect(to: string)

  /** The guard: signed out goes to the login page, a role mismatch goes
      to the user's own dashboard, anything else renders. */
  function ProtectedRoute(user: Option<User>, required: Option<Role>): (d: Decision)
    ensures user.None? ==> d == Redirect(LoginPath)
    ensures user.Some? && required.Some? && required.value != user.value.role
            ==> d == Redirect(DashboardFor(user.value.role))
    ensures d == Render <==> user.Some? && (required.None? || required.value == user.value.role)
  {
    if user.None? then Redirect(LoginPath)
    else if required.Some? && user.value.role != required.value then
      Redirect(if user.value.role == Admin then AdminDashboardPath else CitizenDashboardPath)
    else Render
  }

  /** What visiting a path does. */
  function Visit(user: Option<User>, path: string): Decision
  {
    match Lookup(path).guard
    case Public => Render
    case Protected(required) => ProtectedRoute(user, required)
  }

  /** The fixed paths the guard sends users to reach the routes they are
      meant for. */
  lemma LookupTargets()
    ensures Lookup(LoginPath).guard == Public
    ensures Lookup(CitizenDashboardPath).guard == Protected(Some(Citizen))
    ensures Lookup(AdminDashboardPath).guard == Protected(Some(Admin))
  {
    FirstMatchAt(Table, LoginPath, 1);
    FirstMatchAt(Table, CitizenDashboardPath, 3);
    FirstMatchAt(Table, AdminDashboardPath, 5);
  }

  /** Each role's dashboard requires exactly that role. */
  lemma DashboardRouteRequiresOwnRole(role: Role)
    ensures Lookup(DashboardFor(role)).guard == Protected(Some(role))
  {
    LookupTargets();
  }

  /** Every redirect lands on a route that renders for the same user, so
      the guard never sends anyone round in a loop. */
  lemma NoRedirectLoop(user: Option<User>, path: string)
    ensures Visit(user, path).Redirect? ==> Visit(user, Visit(user, path).to) == Render
  {
    LookupTargets();
  }

  /** The report details route carries no required role: any signed-in
      user reaches it for any id segment. */
  lemma ReportDetailsOpenToBoth(user: User, id: string)
    requires |id| > 0 && '/' !in id
    ensures Lookup(ReportPrefix + id).guard == Protected(None)
    ensures Visit(Some(user), ReportPrefix + id) == Render
  {
    var path := ReportPrefix + id;
    assert path[..|ReportPrefix|] == ReportPrefix;
    assert path[|ReportPrefix|..] == id;
    assert path[7] == 'r';
    FirstMatchAt(Table, path, 7);
  }

  /** The paths of the citizen pages and of the admin pages. */
  const CitizenPaths: seq<string> := [CitizenDashboardPath, "/submit-report"]
  const AdminPaths: seq<string> := [AdminDashboardPath, "/admin/map", "/admin/analytics"]

  /** The citizen pages require the citizen role and the admin pages the
      admin role: each renders exactly for its own role and sends the other
      role to that role's dashboard. */
  lemma RoleRequirements(user: User, path: string)
    ensures path in CitizenPaths ==> Lookup(path).guard == Protected(Some(Citizen))
    ensures path in AdminPaths ==> Lookup(path).guard == Protected(Some(Admin))
    ensures path in CitizenPaths + AdminPaths ==>
      (Visit(Some(user), path) == Render
       <==> (user.role == Citizen <==> path in CitizenPaths))
    ensures path in CitizenPaths + AdminPaths && Visit(Some(user), path) != Render ==>
      Visit(Some(user), path) == Redirect(DashboardFor(user.role))
  {
    if path == CitizenDashboardPath {
      FirstMatchAt(Table, path, 3);
    } else if path == "/submit-report" {
      FirstMatchAt(Table, path, 4);
    } else if path == AdminDashboardPath {
      FirstMatchAt(Table, path, 5);
    } else if path == "/admin/map" {
      FirstMatchAt(Table, path, 6);
    } else if path == "/admin/analytics" {
      assert !Matches(Table[7].pattern, path) by {
        assert path[7] != ReportPrefix[7];
      }
      FirstMatchAt(Table, path, 8);
    }
  }
}

=== FILE: seqs.dfy ===
/** Order-preserving filters and counts over sequences: the one list
    operation every page of the application is built from. */
module Seqs {

  /** `a` can be obtained from `b` by deleting elements, keeping order.
      Matching greedily against the front of `b` decides it. */
  predicate IsSubsequence<T(==,!new)>(a: seq<T>, b: seq<T>)
    decreases |b|
  {
    if |a| == 0 then true
    else if |b| == 0 then false
    else if a[0] == b[0] then IsSubsequence(a[1..], b[1..])
    else IsSubsequence(a, b[1..])
  }

  /** The elements of `s` that satisfy `p`, in their original order. */
  function Filter<T(==,!new)>(s: seq<T>, p: T -> bool): (r: seq<T>)
    ensures |r| <= |s|
    ensures forall x :: x in r <==> x in s && p(x)
    ensures IsSubsequence(r, s)
    decreases |s|
  {
    if |s| == 0 then []
    else if p(s[0]) then
      var rest := Filter(s[1..], p);
      assert ([s[0]] + rest)[1..] == rest;
      [s[0]] + rest
    else
      var rest := Filter(s[1..], p);
      assert |rest| > 0 ==> rest[0] in rest && rest[0] != s[0];
      rest
  }

  /** Conjunction and disjunction of two selection tests. */
  function Both<T>(p: T -> bool, q: T -> bool): T -> bool
  {
    x => p(x) && q(x)
  }

  function Either<T>(p: T -> bool, q: T -> bool): T -> bool
  {
    x => p(x) || q(x)
  }

  /** How many elements of `s` satisfy `p`. */
  function Count<T(==,!new)>(s: seq<T>, p: T -> bool): nat
  {
    |Filter(s, p)|
  }

  /** Filtering keeps the whole sequence exactly when every element passes. */
  lemma {:induction false} FilterKeepsAllIff<T(!new)>(s: seq<T>, p: T -> bool)
    ensures Filter(s, p) == s <==> forall x :: x in s ==> p(x)
    decreases |s|
  {
    if |s| > 0 {
      FilterKeepsAllIff(s[1..], p);
      if forall x :: x in s ==> p(x) {
        assert forall x :: x in s[1..] ==> x in s;
      }
    }
  }

  /** A count reaches the length exactly when every element passes. */
  lemma CountAllIff<T(!new)>(s: seq<T>, p: T -> bool)
    ensures Count(s, p) == |s| <==> forall x :: x in s ==> p(x)
  {
    FilterKeepsAllIff(s, p);
    if Count(s, p) == |s| {
      SubsequenceOfSameLength(Filter(s, p), s);
    }
  }

  /** A subsequence as long as the sequence is the sequence itself. */
  lemma {:induction false} SubsequenceOfSameLength<T(!new)>(a: seq<T>, b: seq<T>)
    requires IsSubsequence(a, b)
    requires |a| == |b|
    ensures a == b
    decreases |b|
  {
    if |a| > 0 {
      if a[0] == b[0] {
        SubsequenceOfSameLength(a[1..], b[1..]);
        assert a == [a[0]] + a[1..];
        assert b == [b[0]] + b[1..];
      } else {
        SubsequenceNotLonger(a, b[1..]);
        assert false;
      }
    }
  }

  /** A subsequence is never longer than the sequence. */
  lemma {:induction false} SubsequenceNotLonger<T(!new)>(a: seq<T>, b: seq<T>)
    requires IsSubsequence(a, b)
    ensures |a| <= |b|
    decreases |b|
  {
    if |a| > 0 {
      if a[0] == b[0] {
        SubsequenceNotLonger(a[1..], b[1..]);
      } else {
        SubsequenceNotLonger(a, b[1..]);
      }
    }
  }

  /** Every sequence is a subsequence of itself. */
  lemma {:induction false} SubsequenceReflexive<T(!new)>(s: seq<T>)
    ensures IsSubsequence(s, s)
    decreases |s|
  {
    if |s| > 0 {
      SubsequenceReflexive(s[1..]);
    }
  }

  /** Counting under a test that no element passes gives zero. */
  lemma {:induction false} CountNone<T(!new)>(s: seq<T>, p: T -> bool)
    requires forall x :: x in s ==> !p(x)
    ensures Count(s, p) == 0
    decreases |s|
  {
    if |s| > 0 {
      assert s[0] in s;
      assert forall x :: x in s[1..] ==> x in s;
      CountNone(s[1..], p);
    }
  }

  /** Filtering keeps every copy of a passing element and no copy of a
      failing one. */
  lemma {:induction false} FilterMultiset<T(!new)>(s: seq<T>, p: T -> bool)
    ensures forall x :: multiset(Filter(s, p))[x] == if p(x) then multiset(s)[x] else 0
    decreases |s|
  {
    if |s| > 0 {
      FilterMultiset(s[1..], p);
      assert s == [s[0]] + s[1..];
    }
  }

  /** Filtering distributes over concatenation. */
  lemma {:induction false} FilterAppend<T(!new)>(s: seq<T>, t: seq<T>, p: T -> bool)
    ensures Filter(s + t, p) == Filter(s, p) + Filter(t, p)
    decreases |s|
  {
    if |s| == 0 {
      assert s + t == t;
    } else {
      assert (s + t)[0] == s[0];
      assert (s + t)[1..] == s[1..] + t;
      FilterAppend(s[1..], t, p);
    }
  }

  /** Two predicates that agree on the elements give the same filter. */
  lemma {:induction false} FilterAgreeing<T(!new)>(s: seq<T>, p: T -> bool, q: T -> bool)
    requires forall x :: x in s ==> p(x) == q(x)
    ensures Filter(s, p) == Filter(s, q)
    decreases |s|
  {
    if |s| > 0 {
      assert forall x :: x in s[1..] ==> x in s;
      FilterAgreeing(s[1..], p, q);
    }
  }

  /** Filtering twice is filtering once by the conjunction. */
  lemma {:induction false} FilterFilter<T(!new)>(s: seq<T>, p: T -> bool, q: T -> bool)
    ensures Filter(Filter(s, p), q) == Filter(s, Both(p, q))
    decreases |s|
  {
    if |s| > 0 {
      FilterFilter(s[1..], p, q);
      if p(s[0]) {
        var rest := Filter(s[1..], p);
        assert ([s[0]] + rest)[1..] == rest;
      }
    }
  }

  /** Counting by two predicates that never hold together adds up to
      counting by their disjunction. */
  lemma {:induction false} CountDisjoint<T(!new)>(s: seq<T>, p: T -> bool, q: T -> bool)
    requires forall x :: x in s ==> !(p(x) && q(x))
    ensures Count(s, Either(p, q)) == Count(s, p) + Count(s, q)
    decreases |s|
  {
    if |s| > 0 {
      assert forall x :: x in s[1..] ==> x in s;
      CountDisjoint(s[1..], p, q);
    }
  }
}

=== FILE: store.dfy ===
/** The in-memory session and report store (src/store/useStore.ts): a
    synchronous state machine over the signed-in user and the report list.
    Clock readings and the `Date.now()` stamp behind every generated id
    are parameters. */
module Store {
  import opened Types
  import Text

  /** The two hard-coded accounts of the mock sign-in. */
  const AdminEmail := "admin@gmail.com"
  const AdminPassword := "adm12"
  const CitizenEmail := "citizen@gmail.com"
  const CitizenPassword := "cit12"

  const AdminAccount := User("admin1", "Admin User", AdminEmail, Admin)
  const CitizenAccount := User("user1", "Citizen", CitizenEmail, Citizen)

  datatype State = State(user: Option<User>, reports: seq<Report>)

  /** The store starts signed out with an empty report list. */
  const Initial := State(None, [])

  /** The account a credential pair signs in as, if any. */
  function AccountFor(email: string, password: string): Option<User>
  {
    if email == AdminEmail && password == AdminPassword then Some(AdminAccount)
    else if email == CitizenEmail && password == CitizenPassword then Some(CitizenAccount)
    else None
  }

  /** Signs in with one of the two mock accounts. */
  function Login(st: State, email: string, password: string): (r: (State, bool))
    ensures r.1 <==> ((email == AdminEmail && password == AdminPassword)
                      || (email == CitizenEmail && password == CitizenPassword))
    ensures r.1 ==> r.0.user.Some? && r.0.user.value.email == email
    ensures r.1 ==> (r.0.user.value.role == Admin <==> email == AdminEmail)
    ensures !r.1 ==> r.0 == st
    ensures r.0.reports == st.reports
  {
    if email == AdminEmail && password == AdminPassword then
      (st.(user := Some(AdminAccount)), true)
    else if email == CitizenEmail && password == CitizenPassword then
      (st.(user := Some(CitizenAccount)), true)
    else
      (st, false)
  }

  /** A sign-in succeeds exactly for a known account, and then the signed-in
      user is that account. */
  lemma LoginMatchesAccounts(st: State, email: string, password: string)
    ensures Login(st, email, password).1 <==> AccountFor(email, password).Some?
    ensures Login(st, email, password).0.user
            == (if AccountFor(email, password).Some? then AccountFor(email, password)
                else st.user)
  {
  }

  /** The mock registration: always succeeds and signs in a new user with the
      given name, e-mail and role. The password is not kept. */
  function Register(st: State, name: string, email: string, password: string,
                    role: Role, stamp: nat): (r: (State, bool))
    ensures r.1
    ensures r.0.user.Some?
    ensures r.0.user.value.name == name && r.0.user.value.email == email
    ensures r.0.user.value.role == role
    ensures |r.0.user.value.id| > 4 && r.0.user.value.id[..4] == "user"
    ensures Text.IsDigits(r.0.user.value.id[4..])
    ensures r.0.reports == st.reports
  {
    assert |"user"| == 4;
    (st.(user := Some(User(Text.StampedId("user", stamp), name, email, role))), true)
  }

  /** Registrations at distinct stamps give distinct user ids. */
  lemma RegisterIdsDistinct(st: State, n1: string, e1: string, p1: string, r1: Role,
                            n2: string, e2: string, p2: string, r2: Role,
                            s1: nat, s2: nat)
    requires s1 != s2
    ensures Register(st, n1, e1, p1, r1, s1).0.user.value.id
            != Register(st, n2, e2, p2, r2, s2).0.user.value.id
  {
    if Text.StampedId("user", s1) == Text.StampedId("user", s2) {
      Text.StampedIdInjective("user", s1, s2);
    }
  }

  /** Signing out forgets the user and keeps the report list. */
  function Logout(st: State): (r: State)
    ensures r.user.None?
    ensures r.reports == st.reports
  {
    st.(user := None)
  }

  /** Appends a report built from `d`, with id `report<stamp>` and creation
      and update times read from the clock one after the other. */
  function AddReport(st: State, d: Draft, stamp: nat, created: nat, updated: nat): (r: State)
    ensures r.user == st.user
    ensures |r.reports| == |st.reports| + 1
    ensures r.reports[..|st.reports|] == st.reports
    ensures DraftOf(r.reports[|st.reports|]) == d
    ensures r.reports[|st.reports|].id == Text.StampedId("report", stamp)
    ensures r.reports[|st.reports|].createdAt == created
    ensures r.reports[|st.reports|].updatedAt == updated
  {
    var nr := FromDraft(d, Text.StampedId("report", stamp), created, updated);
    st.(reports := st.reports + [nr])
  }

  /** Sets `status` and a fresh update time on every report with id `id`. */
  function UpdateReportStatus(st: State, id: string, status: Status, now: nat): (r: State)
    ensures r.user == st.user
    ensures |r.reports| == |st.reports|
    ensures forall i :: 0 <= i < |st.reports| ==>
      StatusUpdated(st.reports[i], r.reports[i], id, status, now)
  {
    st.(reports := SetStatus(st.reports, id, status, now))
  }

  /** How one entry relates before and after a status update: a matching
      entry gets the status and the time and keeps every other field; any
      other entry is untouched. */
  predicate StatusUpdated(before: Report, after: Report, id: string, status: Status, now: nat)
  {
    if before.id == id then
      after.status == status && after.updatedAt == now
      && after.(status := before.status, updatedAt := before.updatedAt) == before
    else
      after == before
  }

  /** The element-wise map behind `UpdateReportStatus`. */
  function SetStatus(rs: seq<Report>, id: string, status: Status, now: nat): (r: seq<Report>)
    ensures |r| == |rs|
    ensures forall i :: 0 <= i < |rs| ==> StatusUpdated(rs[i], r[i], id, status, now)
    decreases |rs|
  {
    if |rs| == 0 then []
    else
      var head := if rs[0].id == id then rs[0].(status := status, updatedAt := now) else rs[0];
      [head] + SetStatus(rs[1..], id, status, now)
  }

  /** An update changes nothing exactly when every matching report already
      has that status and that time; in particular an absent id leaves the
      list as it was. */
  lemma SetStatusUnchangedIff(rs: seq<Report>, id: string, status: Status, now: nat)
    ensures SetStatus(rs, id, status, now) == rs
            <==> forall i :: 0 <= i < |rs| && rs[i].id == id ==>
                   rs[i].status == status && rs[i].updatedAt == now
  {
    var r := SetStatus(rs, id, status, now);
    if forall i :: 0 <= i < |rs| && rs[i].id == id ==>
         rs[i].status == status && rs[i].updatedAt == now {
      assert forall i :: 0 <= i < |rs| ==> r[i] == rs[i];
    }
  }

  lemma UpdateAbsentIdUnchanged(st: State, id: string, status: Status, now: nat)
    requires forall i :: 0 <= i < |st.reports| ==> st.reports[i].id != id
    ensures UpdateReportStatus(st, id, status, now) == st
  {
    SetStatusUnchangedIff(st.reports, id, status, now);
  }

  /** A second update of the same id overrides the first: the statuses are
      those of one update, and only the last time survives. Repeating an
      update at the same time is idempotent. */
  lemma UpdateTwiceIsOnce(st: State, id: string, status: Status, t1: nat, t2: nat)
    ensures UpdateReportStatus(UpdateReportStatus(st, id, status, t1), id, status, t2)
            == UpdateReportStatus(st, id, status, t2)
  {
    var a := SetStatus(SetStatus(st.reports, id, status, t1), id, status, t2);
    var b := SetStatus(st.reports, id, status, t2);
    assert forall i :: 0 <= i < |st.reports| ==> a[i] == b[i];
  }

  /** Report ids are unique within the list. */
  predicate UniqueIds(rs: seq<Report>)
  {
    forall i, j :: 0 <= i < j < |rs| ==> rs[i].id != rs[j].id
  }

  /** No report was updated before it was created. */
  predicate TimesOrdered(rs: seq<Report>)
  {
    forall i :: 0 <= i < |rs| ==> rs[i].createdAt <= rs[i].updatedAt
  }

  /** The store invariant of the data model: unique ids and ordered times. */
  predicate Valid(st: State)
  {
    UniqueIds(st.reports) && TimesOrdered(st.reports)
  }

  /** The store starts out signed out and satisfies its invariant. */
  lemma InitialValid()
    ensures Initial.user.None? && Valid(Initial)
  {
  }

  /** `now` is no earlier than any time the store has recorded. */
  predicate ClockAfter(st: State, now: nat)
  {
    forall i :: 0 <= i < |st.reports| ==> st.reports[i].updatedAt <= now
  }

  /** Adding a report keeps the invariant when its id is new and the two
      clock readings are taken in order. */
  lemma AddReportKeepsValid(st: State, d: Draft, stamp: nat, created: nat, updated: nat)
    requires Valid(st)
    requires created <= updated
    requires forall i :: 0 <= i < |st.reports| ==>
      st.reports[i].id != Text.StampedId("report", stamp)
    ensures Valid(AddReport(st, d, stamp, created, updated))
  {
    var r := AddReport(st, d, stamp, created, updated);
    assert forall i :: 0 <= i < |st.reports| ==> r.reports[i] == st.reports[i];
  }

  /** A status update keeps the invariant when the clock has not gone back,
      and moves the update time of every matching report forward when the
      clock has moved on. */
  lemma UpdateKeepsValid(st: State, id: string, status: Status, now: nat)
    requires Valid(st)
    requires ClockAfter(st, now)
    ensures Valid(UpdateReportStatus(st, id, status, now))
    ensures ClockAfter(UpdateReportStatus(st, id, status, now), now)
  {
    var r := UpdateReportStatus(st, id, status, now);
    assert forall i :: 0 <= i < |st.reports| ==> r.reports[i].id == st.reports[i].id;
  }

  /** With a strictly later clock, every matching report's update time
      strictly increases. */
  lemma UpdateBumpsTime(st: State, id: string, status: Status, now: nat)
    requires forall i :: 0 <= i < |st.reports| ==> st.reports[i].updatedAt < now
    ensures forall i :: 0 <= i < |st.reports| && st.reports[i].id == id ==>
      UpdateReportStatus(st, id, status, now).reports[i].updatedAt > st.reports[i].updatedAt
  {
  }
}

=== FILE: submit_report.dfy ===
/** The report submission page (src/pages/SubmitReport.tsx): the form
    state, the geolocation and photo handlers, and the submit handler's
    guards and draft. */
module SubmitReport {
  import opened Types
  import Seqs
  import Queries
  import Store
  import Analytics
  import ReportFilter
  import AdminDashboard
  import CitizenDashboard

  /** The category menu as the page writes it; the last value carries a
      trailing space. */
  const CategoryOptionsAsWritten: seq<string> := [
    "Accident Issue", "Water Supply Issue", "Drainage Problem",
    "Street Light Problem", "Garbage Issue", "Road Damage", "Other Issue "]

  /** The category menu with the last value spelled as every other page
      spells it. */
  const CategoryOptions: seq<string> := [
    "Accident Issue", "Water Supply Issue", "Drainage Problem",
    "Street Light Problem", "Garbage Issue", "Road Damage", "Other Issue"]

  /** The category the form starts with; the menu does not offer it. */
  const DefaultCategory := "infrastructure"

  /** The coordinates a report gets when none were captured. */
  const DefaultCoords := Coords(40.7128, -74.0060)

  /** The form fields of the page. */
  datatype Form = Form(
    title: string,
    description: string,
    category: string,
    address: string,
    location: Option<Coords>,
    photos: seq<string>)

  const InitialForm := Form("", "", DefaultCategory, "", None, [])

  /** What the browser's geolocation request ends in. */
  datatype GeoOutcome = Unsupported | Located(coords: Coords) | Denied | Unavailable

  /** "Use My Location": every outcome only shows a message or opens a map
      in a new tab; the form, and in particular its location, is left as
      it was. */
  function HandleGetLocation(f: Form, outcome: GeoOutcome): (r: Form)
    ensures r == f
  {
    match outcome
    case Unsupported => f
    case Located(_) => f
    case Denied => f
    case Unavailable => f
  }

  /** The photo input: a selection appends its URLs after the photos
      already chosen, in order; no selection changes nothing. */
  function HandlePhotoUpload(f: Form, files: Option<seq<string>>): (r: Form)
    ensures files.None? ==> r == f
    ensures files.Some? ==> |r.photos| == |f.photos| + |files.value|
    ensures files.Some? ==> (r.photos[..|f.photos|] == f.photos
                             && r.photos[|f.photos|..] == files.value)
    ensures r.(photos := f.photos) == f
  {
    if files.Some? then f.(photos := f.photos + files.value) else f
  }

  /** The user's actions on the form before pressing Submit. */
  datatype FormEvent =
    | EditTitle(title: string)
    | EditDescription(description: string)
    | PickCategory(category: string)
    | EditAddress(address: string)
    | UseMyLocation(outcome: GeoOutcome)
    | UploadPhotos(files: Option<seq<string>>)

  function Step(f: Form, e: FormEvent): Form
  {
    match e
    case EditTitle(t) => f.(title := t)
    case EditDescription(d) => f.(description := d)
    case PickCategory(c) => f.(category := c)
    case EditAddress(a) => f.(address := a)
    case UseMyLocation(o) => HandleGetLocation(f, o)
    case UploadPhotos(files) => HandlePhotoUpload(f, files)
  }

  /** The form after a sequence of actions. */
  function Run(f: Form, es: seq<FormEvent>): Form
    decreases |es|
  {
    if |es| == 0 then f else Run(Step(f, es[0]), es[1..])
  }

  /** The photo URLs the actions select, in order. */
  function Uploads(es: seq<FormEvent>): seq<string>
    decreases |es|
  {
    if |es| == 0 then []
    else
      var now := if es[0].UploadPhotos? && es[0].files.Some? then es[0].files.value else [];
      now + Uploads(es[1..])
  }

  /** No sequence of actions ever sets the location. */
  lemma {:induction false} LocationNeverCaptured(f: Form, es: seq<FormEvent>)
    ensures Run(f, es).location == f.location
    decreases |es|
  {
    if |es| > 0 {
      LocationNeverCaptured(Step(f, es[0]), es[1..]);
    }
  }

  /** The photos after a sequence of actions are the starting photos
      followed by every selection, in the order made. */
  lemma {:induction false} PhotosAccumulate(f: Form, es: seq<FormEvent>)
    ensures Run(f, es).photos == f.photos + Uploads(es)
    decreases |es|
  {
    if |es| > 0 {
      var g := Step(f, es[0]);
      PhotosAccumulate(g, es[1..]);
      var now := if es[0].UploadPhotos? && es[0].files.Some? then es[0].files.value else [];
      assert g.photos == f.photos + now;
      assert f.photos + now + Uploads(es[1..]) == f.photos + (now + Uploads(es[1..]));
    }
  }

  /** Why the submit handler stops without calling the store. */
  datatype SubmitError = NotSignedIn | NoLocation

  /** The submit handler: no user, then no location and no address, stop
      it; otherwise it hands the store a pending draft by the signed-in
      user, placed at the captured coordinates or at the default ones. */
  function HandleSubmit(user: Option<User>, f: Form): (r: Result<Draft, SubmitError>)
    ensures r.Err? <==> user.None? || (f.location.None? && f.address == "")
    ensures user.None? ==> r == Err(NotSignedIn)
    ensures user.Some? && f.location.None? && f.address == "" ==> r == Err(NoLocation)
    ensures r.Ok? ==> r.value.status == Pending
    ensures r.Ok? ==> r.value.citizenId == user.value.id && r.value.citizenName == user.value.name
    ensures r.Ok? ==> r.value.title == f.title && r.value.description == f.description
                      && r.value.category == f.category && r.value.photos == f.photos
    ensures r.Ok? ==> r.value.location.address == f.address
    ensures r.Ok? ==> r.value.location.coords
                      == (if f.location.Some? then f.location.value else DefaultCoords)
  {
    if user.None? then Err(NotSignedIn)
    else if f.location.None? && f.address == "" then Err(NoLocation)
    else
      var coords := if f.location.Some? then f.location.value else DefaultCoords;
      Ok(Draft(f.title, f.description, f.category, Pending, user.value.id,
               user.value.name, Location(coords, f.address), f.photos))
  }

  /** Submitting against the store: on success the report is appended with
      an id from `stamp` and the two clock readings; on failure the store
      is not called. */
  function Submit(st: Store.State, f: Form, stamp: nat, created: nat, updated: nat)
    : (r: Result<Store.State, SubmitError>)
    ensures r.Err? <==> HandleSubmit(st.user, f).Err?
    ensures r.Err? ==> r.error == HandleSubmit(st.user, f).error
    ensures r.Ok? ==> r.value.user == st.user
    ensures r.Ok? ==> (|r.value.reports| == |st.reports| + 1
                       && r.value.reports[..|st.reports|] == st.reports)
    ensures r.Ok? ==> DraftOf(r.value.reports[|st.reports|]) == HandleSubmit(st.user, f).value
    ensures r.Ok? ==> r.value == Store.AddReport(st, HandleSubmit(st.user, f).value,
                                                 stamp, created, updated)
  {
    var d := HandleSubmit(st.user, f);
    if d.Err? then Err(d.error) else Ok(Store.AddReport(st, d.value, stamp, created, updated))
  }

  /** Because the location is never captured, a signed-in citizen can
      submit exactly when the address is filled in. */
  lemma AddressRequired(u: User, es: seq<FormEvent>)
    ensures HandleSubmit(Some(u), Run(InitialForm, es)).Ok? <==> Run(InitialForm, es).address != ""
  {
    LocationNeverCaptured(InitialForm, es);
  }

  /** After a successful submission the citizen's dashboard lists the new
      report last, counts one more pending report and leaves the other
      counts alone. */
  lemma SubmissionShowsOnCitizenDashboard(st: Store.State, f: Form, stamp: nat,
                                          created: nat, updated: nat)
    requires Submit(st, f, stamp, created, updated).Ok?
    ensures var st' := Submit(st, f, stamp, created, updated).value;
      var v := CitizenDashboard.Render(st.user, st.reports, AllStatuses).value;
      var v' := CitizenDashboard.Render(st'.user, st'.reports, AllStatuses).value;
      && v'.userReports == v.userReports + [st'.reports[|st.reports|]]
      && v'.pending == v.pending + 1
      && v'.inProgress == v.inProgress
      && v'.resolved == v.resolved
  {
    var st' := Submit(st, f, stamp, created, updated).value;
    var x := st'.reports[|st.reports|];
    assert st'.reports == st.reports + [x];
    var uid := st.user.value.id;
    Seqs.FilterAppend(st.reports, [x], Queries.AuthoredBy(uid));
    var mine := Queries.ByCitizen(st.reports, uid);
    assert Queries.ByCitizen(st'.reports, uid) == mine + [x];
    Queries.CountStatusAppend(mine, x, Pending);
    Queries.CountStatusAppend(mine, x, InProgress);
    Queries.CountStatusAppend(mine, x, Resolved);
  }

  /** A submission whose category the chart does not count adds one to
      the dashboard total and nothing to the chart, and the dashboard's
      selector for any other category value does not list it. */
  lemma UnchartedSubmission(st: Store.State, f: Form, stamp: nat, created: nat,
                            updated: nat, other: string)
    requires f.category !in Analytics.CategoryNames
    requires other != f.category && other != ReportFilter.AllCategories
    requires Submit(st, f, stamp, created, updated).Ok?
    ensures var st' := Submit(st, f, stamp, created, updated).value;
      && AdminDashboard.ComputeStats(st'.reports).total
         == AdminDashboard.ComputeStats(st.reports).total + 1
      && Analytics.Total(Analytics.CategoryData(st'.reports))
         == Analytics.Total(Analytics.CategoryData(st.reports))
      && st'.reports[|st.reports|]
         !in AdminDashboard.Shown(st'.reports, AdminDashboard.Filters(AllStatuses, other))
  {
    var st' := Submit(st, f, stamp, created, updated).value;
    var x := st'.reports[|st.reports|];
    assert st'.reports == st.reports + [x];
    assert x.category == f.category;
    Analytics.CategoryTotalAppend(st.reports, x);
  }

  /** As written, a report filed under the menu's last option is counted in
      the dashboard total but in no slice of the category chart, and the
      dashboard's "Other Issue" selector does not list it. */
  lemma OtherIssueAsWrittenIsLost(st: Store.State, f: Form, stamp: nat,
                                  created: nat, updated: nat)
    requires f.category == CategoryOptionsAsWritten[6]
    requires Submit(st, f, stamp, created, updated).Ok?
    ensures var st' := Submit(st, f, stamp, created, updated).value;
      && AdminDashboard.ComputeStats(st'.reports).total
         == AdminDashboard.ComputeStats(st.reports).total + 1
      && Analytics.Total(Analytics.CategoryData(st'.reports))
         == Analytics.Total(Analytics.CategoryData(st.reports))
      && st'.reports[|st.reports|]
         !in AdminDashboard.Shown(st'.reports, AdminDashboard.Filters(AllStatuses, "Other Issue"))
  {
    TrailingSpaceUncharted();
    UnchartedSubmission(st, f, stamp, created, updated, "Other Issue");
  }

  /** The last written option is no name the chart counts. */
  lemma TrailingSpaceUncharted()
    ensures CategoryOptionsAsWritten[6] !in Analytics.CategoryNames
  {
  }

  /** The corrected menu offers exactly the chart's names, and differs from
      the written one only in the last value's trailing space. */
  lemma CategoryOptionsCorrected()
    ensures CategoryOptions == Analytics.CategoryNames
    ensures CategoryOptionsAsWritten[..6] == CategoryOptions[..6]
    ensures CategoryOptionsAsWritten[6] == CategoryOptions[6] + " "
  {
  }

  /** A submission whose category the chart counts adds one to the chart
      total, and the dashboard's selector for its category lists it. */
  lemma ChartedSubmission(st: Store.State, f: Form, stamp: nat, created: nat, updated: nat)
    requires f.category in Analytics.CategoryNames && f.category != ReportFilter.AllCategories
    requires Submit(st, f, stamp, created, updated).Ok?
    ensures var st' := Submit(st, f, stamp, created, updated).value;
      && Analytics.Total(Analytics.CategoryData(st'.reports))
         == Analytics.Total(Analytics.CategoryData(st.reports)) + 1
      && st'.reports[|st.reports|]
         in AdminDashboard.Shown(st'.reports, AdminDashboard.Filters(AllStatuses, f.category))
  {
    var st' := Submit(st, f, stamp, created, updated).value;
    var x := st'.reports[|st.reports|];
    assert st'.reports == st.reports + [x];
    assert x.category == f.category;
    Analytics.CategoryTotalAppend(st.reports, x);
  }

  /** No corrected menu value is the "every category" selector value. */
  lemma CategoryOptionsNotAll()
    ensures ReportFilter.AllCategories !in CategoryOptions
  {
  }

  /** With the corrected menu, every submission shows up in the category
      chart, and the dashboard's selector for its category lists it. */
  lemma SubmittedCategoryIsCharted(st: Store.State, f: Form, stamp: nat,
                                   created: nat, updated: nat)
    requires f.category in CategoryOptions
    requires Submit(st, f, stamp, created, updated).Ok?
    ensures var st' := Submit(st, f, stamp, created, updated).value;
      && Analytics.Total(Analytics.CategoryData(st'.reports))
         == Analytics.Total(Analytics.CategoryData(st.reports)) + 1
      && st'.reports[|st.reports|]
         in AdminDashboard.Shown(st'.reports, AdminDashboard.Filters(AllStatuses, f.category))
  {
    CategoryOptionsCorrected();
    CategoryOptionsNotAll();
    ChartedSubmission(st, f, stamp, created, updated);
  }
}

=== FILE: text.dfy ===
/** The string operations the pages apply to names and labels: ASCII
    upper-casing, replacing the first occurrence of a character, and the
    decimal rendering of a clock stamp used inside generated ids. */
module Text {

  predicate IsLowerAscii(c: char)
  {
    'a' <= c <= 'z'
  }

  predicate IsUpperAscii(c: char)
  {
    'A' <= c <= 'Z'
  }

  /** Upper-cases an ASCII letter; every other character is left alone. */
  function UpperChar(c: char): (u: char)
    ensures !IsLowerAscii(u)
    ensures IsLowerAscii(c) ==> IsUpperAscii(u) && u as int + 32 == c as int
    ensures !IsLowerAscii(c) ==> u == c
  {
    if 'a' <= c <= 'z' then (c as int - 32) as char else c
  }

  /** Upper-cases every character of `s`. */
  function ToUpper(s: string): (r: string)
    ensures |r| == |s|
    ensures forall i :: 0 <= i < |s| ==> r[i] == UpperChar(s[i])
  {
    seq(|s|, i requires 0 <= i < |s| => UpperChar(s[i]))
  }

  /** The position of the first `c` in `s`, or `|s|` when there is none. */
  function FirstIndexOf(s: string, c: char): (k: nat)
    ensures k <= |s|
    ensures forall i :: 0 <= i < k ==> s[i] != c
    ensures k < |s| ==> s[k] == c
    ensures k == |s| <==> c !in s
    decreases |s|
  {
    if |s| == 0 then 0
    else if s[0] == c then 0
    else
      var k := FirstIndexOf(s[1..], c);
      assert c in s[1..] ==> c in s;
      assert c in s && s[0] != c ==> c in s[1..] by {
        if c in s && s[0] != c {
          var j :| 0 <= j < |s| && s[j] == c;
          assert s[1..][j - 1] == c;
        }
      }
      1 + k
  }

  /** Replaces the first occurrence of `from` by `to`, as the string
      `replace` of the application does when given a one-character
      pattern. */
  function ReplaceFirst(s: string, from: char, to: char): (r: string)
    ensures |r| == |s|
    ensures forall i :: 0 <= i < |s| ==>
      r[i] == (if i == FirstIndexOf(s, from) then to else s[i])
    decreases |s|
  {
    if |s| == 0 then s
    else if s[0] == from then [to] + s[1..]
    else [s[0]] + ReplaceFirst(s[1..], from, to)
  }

  /** Without an occurrence nothing changes; with one, exactly one
      position changes. */
  lemma ReplaceFirstAbsent(s: string, from: char, to: char)
    requires from !in s
    ensures ReplaceFirst(s, from, to) == s
  {
    var r := ReplaceFirst(s, from, to);
    assert forall i :: 0 <= i < |s| ==> r[i] == s[i];
  }

  /** The first occurrence is pinned down by its position alone. */
  lemma FirstIndexOfAt(s: string, c: char, k: nat)
    requires k < |s| && s[k] == c
    requires forall i :: 0 <= i < k ==> s[i] != c
    ensures FirstIndexOf(s, c) == k
  {
  }

  /** With the first occurrence at `k`, replacing it gives the string that
      has `to` at `k` and agrees with `s` everywhere else. */
  lemma ReplaceFirstAt(s: string, from: char, to: char, k: nat, t: string)
    requires k < |s| && s[k] == from
    requires forall i :: 0 <= i < k ==> s[i] != from
    requires |t| == |s| && t[k] == to
    requires forall i :: 0 <= i < |s| && i != k ==> t[i] == s[i]
    ensures ReplaceFirst(s, from, to) == t
  {
    FirstIndexOfAt(s, from, k);
    var r := ReplaceFirst(s, from, to);
    assert forall i :: 0 <= i < |s| ==> r[i] == t[i];
  }

  /** When `from` occurs at most once, replacing the first occurrence
      replaces every occurrence, so none is left. */
  lemma ReplaceOnlyOccurrence(s: string, from: char, to: char)
    requires from != to
    requires forall i, j :: 0 <= i < j < |s| ==> s[i] != from || s[j] != from
    ensures forall i :: 0 <= i < |s| ==>
      ReplaceFirst(s, from, to)[i] == (if s[i] == from then to else s[i])
    ensures from !in ReplaceFirst(s, from, to)
  {
    var r := ReplaceFirst(s, from, to);
    assert forall i :: 0 <= i < |r| ==> r[i] == (if s[i] == from then to else s[i]);
  }

  /** When `to` does not occur in `s`, replacing the first `to` of the
      result by `from` undoes the replacement. */
  lemma ReplaceFirstUndone(s: string, from: char, to: char)
    requires to !in s
    ensures ReplaceFirst(ReplaceFirst(s, from, to), to, from) == s
  {
    var t := ReplaceFirst(s, from, to);
    var k := FirstIndexOf(s, from);
    if k < |s| {
      FirstIndexOfAt(t, to, k);
      var u := ReplaceFirst(t, to, from);
      assert forall i :: 0 <= i < |s| ==> u[i] == s[i];
    } else {
      ReplaceFirstAbsent(s, from, to);
      ReplaceFirstAbsent(t, to, from);
    }
  }

  /** The decimal digit of a value below ten. */
  function Digit(d: nat): (c: char)
    requires d < 10
    ensures '0' <= c <= '9'
  {
    ('0' as int + d) as char
  }

  predicate IsDigits(s: string)
  {
    forall i :: 0 <= i < |s| ==> '0' <= s[i] <= '9'
  }

  /** The decimal rendering of a natural number, as a template string
      renders a millisecond clock reading. */
  function Decimal(n: nat): (s: string)
    ensures |s| >= 1
    ensures IsDigits(s)
    decreases n
  {
    if n < 10 then [Digit(n)] else Decimal(n / 10) + [Digit(n % 10)]
  }

  /** Reads a string of decimal digits back as a number. */
  function ParseDecimal(s: string): nat
    requires IsDigits(s)
    decreases |s|
  {
    if |s| == 0 then 0
    else ParseDecimal(s[..|s| - 1]) * 10 + (s[|s| - 1] as int - '0' as int)
  }

  /** Decimal rendering is undone by parsing. */
  lemma {:induction false} DecimalRoundTrip(n: nat)
    ensures ParseDecimal(Decimal(n)) == n
    decreases n
  {
    if n >= 10 {
      DecimalRoundTrip(n / 10);
      var s := Decimal(n / 10);
      assert (s + [Digit(n % 10)])[..|s|] == s;
    }
  }

  /** Distinct stamps render differently. */
  lemma DecimalInjective(a: nat, b: nat)
    requires Decimal(a) == Decimal(b)
    ensures a == b
  {
    DecimalRoundTrip(a);
    DecimalRoundTrip(b);
  }

  /** An id made of a fixed prefix and a clock stamp. */
  function StampedId(prefix: string, stamp: nat): (id: string)
    ensures |id| > |prefix|
    ensures id[..|prefix|] == prefix
    ensures IsDigits(id[|prefix|..])
  {
    prefix + Decimal(stamp)
  }

  /** Two ids with the same prefix are equal only for equal stamps, so a
      reading that differs from every earlier one gives a fresh id. */
  lemma StampedIdInjective(prefix: string, a: nat, b: nat)
    requires StampedId(prefix, a) == StampedId(prefix, b)
    ensures a == b
  {
    assert StampedId(prefix, a)[|prefix|..] == Decimal(a);
    assert StampedId(prefix, b)[|prefix|..] == Decimal(b);
    DecimalInjective(a, b);
  }
}

=== FILE: types.dfy ===
/** The entities of the civic report store: users, reports, report drafts
    and the status filter shared by the dashboards. */
module Types {

  datatype Option<+T> = None | Some(value: T)

  datatype Result<+T, +E> = Ok(value: T) | Err(error: E)

  /** The two account kinds. */
  datatype Role = Citizen | Admin

  /** The three report statuses. The set is closed. */
  datatype Status = Pending | InProgress | Resolved

  /** The string each status carries in the application. */
  function StatusName(s: Status): string
  {
    match s
    case Pending => "pending"
    case InProgress => "in-progress"
    case Resolved => "resolved"
  }

  /** Reads a status back from its name; any other string is no status. */
  function StatusFromName(name: string): (r: Option<Status>)
    ensures r.Some? ==> StatusName(r.value) == name
  {
    if name == "pending" then Some(Pending)
    else if name == "in-progress" then Some(InProgress)
    else if name == "resolved" then Some(Resolved)
    else None
  }

  /** Status names are a faithful encoding: they read back to the status
      they came from, so distinct statuses have distinct names. */
  lemma StatusNameRoundTrip(s: Status)
    ensures StatusFromName(StatusName(s)) == Some(s)
  {
    match s
    case Pending =>
    case InProgress =>
      assert StatusName(s) != "pending";
    case Resolved =>
      assert StatusName(s) != "pending";
      assert StatusName(s) != "in-progress";
  }

  datatype User = User(id: string, name: string, email: string, role: Role)

  /** Coordinates are opaque values: nothing computes with them. */
  datatype Coords = Coords(lat: real, lng: real)

  datatype Location = Location(coords: Coords, address: string)

  /** A stored report; `createdAt` and `updatedAt` are clock readings. */
  datatype Report = Report(
    id: string,
    title: string,
    description: string,
    category: string,
    status: Status,
    citizenId: string,
    citizenName: string,
    location: Location,
    photos: seq<string>,
    createdAt: nat,
    updatedAt: nat)

  /** What a submission hands to the store: a report without id and dates. */
  datatype Draft = Draft(
    title: string,
    description: string,
    category: string,
    status: Status,
    citizenId: string,
    citizenName: string,
    location: Location,
    photos: seq<string>)

  /** Completes a draft with the fields the store assigns. */
  function FromDraft(d: Draft, id: string, createdAt: nat, updatedAt: nat): Report
  {
    Report(id, d.title, d.description, d.category, d.status, d.citizenId,
           d.citizenName, d.location, d.photos, createdAt, updatedAt)
  }

  /** The draft part of a report. */
  function DraftOf(r: Report): Draft
  {
    Draft(r.title, r.description, r.category, r.status, r.citizenId,
          r.citizenName, r.location, r.photos)
  }

  /** A report built from a draft gives that draft back, with the assigned
      id and dates in their own fields. */
  lemma DraftRoundTrip(d: Draft, id: string, createdAt: nat, updatedAt: nat)
    ensures DraftOf(FromDraft(d, id, createdAt, updatedAt)) == d
    ensures FromDraft(d, id, createdAt, updatedAt).id == id
    ensures FromDraft(d, id, createdAt, updatedAt).createdAt == createdAt
    ensures FromDraft(d, id, createdAt, updatedAt).updatedAt == updatedAt
  {
  }

  /** A status selector: every status, or one of them. */
  datatype StatusFilter = AllStatuses | OnlyStatus(status: Status)

  predicate Admits(f: StatusFilter, s: Status)
  {
    f.AllStatuses? || f.status == s
  }
}
